=== FILE: README.md ===
# WordyRegex in Dafny

WordyRegex is a small Python library that builds regular expressions from
named method calls instead of regex syntax. A `Pattern` wraps a piece of
regex text. Each composition method returns a new `Pattern` whose text is
the old text plus a fragment: `then`, the anchors, the lookarounds, groups,
back references, quantifiers, `repeat`, `anyOf` and `seq`. A fragment given
as a plain `str` is passed through `re.escape`, so it matches itself
literally. A fragment given as a `Pattern` is used verbatim. Any other value
raises `WordyRegexArgError`. `CharSet` holds fixed patterns for the usual
escape sequences and anchors. It also builds bracket classes `[...]` from
range flags and extra characters, which it escapes with its own
bracket-specific escaper `_escape`.

The model has the following modules:

- `Escaping` defines `re.escape` (Python 3.7 and later) as a function over
  its fixed set of special characters. It also defines `Unescape`, the
  inverse reading, and `LiteralTokens`, "text that reads as literal
  characters only".
- `Numerals` is the decimal text of a natural number. It is used by
  `backrefById` and `repeat`.
- `Syntax` is a scanner for the nesting structure of regex text: groups,
  bracket classes and escapes. `Balanced(t)` says that every group opened
  in `t` is closed, every class is closed, and no escape dangles. This is
  the invariant every composition operation preserves. It is the model's
  statement that the builder turns well-formed fragments into well-formed
  text. It does not judge where one token ends and the next begins (see
  Findings).
- `WordyRegex` holds the `Pattern` value and every composition operation
  as a pure function. Arguments are `Arg = Str | Pat | Other`, and errors
  are a `Result`.
- `PatternLaws` holds laws that relate operations:
  - `seq` is repeated `then`;
  - `then` is associative;
  - `then` on two literals is the literal of their concatenation;
  - `anyOf` on literals splits back into its alternatives;
  - the intended lookbehind is the static one followed by `then`.
- `CharSet` holds:
  - the thirteen constants;
  - `_escape` as a method with the source's loop, one replacing pass per
    bracket special, proved equal to a one-pass definition that round-trips;
  - `charset` as a method, proved to produce balanced text exactly when the
    class lists something;
  - through a small bracket-class interpreter, proof that the class admits
    exactly the characters asked for (or exactly the others with
    `reverse`).
- `Scenarios` holds the compositions of the repository's unit tests, stated
  for any lower-case words (the tests use `hello` and `world`), with the
  exact text each produces.

Behaviour worth noting, which the model follows:

- `preceededBy`/`preceededByNot` are static methods. They return only the
  lookbehind, without the current text (see Findings).
- `group(catch=False)` ignores a given name instead of raising.
- `repeat` checks `min >= max` before it looks at `exact`, so the check
  also fires when `exact` is given.
- `exact` follows Python truthiness, so `exact=0` is ignored.
- `charset('-^_', ...)` escapes `-` and `^` but not `_`. Only `\`, `^`, `-`
  and `]` are escaped.

## Model

| member | source | states |
|---|---|---|
| Escaping.ReEscapeRoundTrip | src/WordyRegex/wordy_regex_impl.py:9-11 | unescaping what `re.escape` produces gives the original string back, so a `str` fragment read on its own denotes exactly that string (after a `\N` reference with a one-digit id, a leading digit is read as part of the reference; see Findings) |
| Escaping.ReEscapeLiteral | src/WordyRegex/wordy_regex_impl.py:9-11 | the escaped text reads as literal characters only: every special character carries a backslash, and no backslash introduces anything else |
| Escaping.LiteralTokensInverse | src/WordyRegex/wordy_regex_impl.py:9-11 | the converse round trip: literal-only text is the escape of its own unescaping |
| Escaping.ReEscapeAppend | src/WordyRegex/wordy_regex_impl.py:9-11 | escaping distributes over concatenation |
| Escaping.ReEscapeNoSpecials | src/WordyRegex/wordy_regex_impl.py:9-11 | a string without special characters is left unchanged |
| Escaping.ReEscapeInjective | src/WordyRegex/wordy_regex_impl.py:9-11 | different strings escape to different texts |
| Escaping.ReEscape | src/WordyRegex/wordy_regex_impl.py:28-29 | escaping at least keeps and at most doubles the length |
| Numerals.DecimalRoundTrip | src/WordyRegex/wordy_regex_impl.py:118-121 | the decimal text of a number reads back as that number |
| Numerals.Decimal | src/WordyRegex/wordy_regex_impl.py:155-161 | the decimal text is non-empty, all digits, and has no leading zero unless it is `0` |
| Syntax.RunAppend | src/WordyRegex/wordy_regex_impl.py:33-35 | scanning a concatenation is scanning the first part, then the second from the depth reached |
| Syntax.BalancedAppend | src/WordyRegex/wordy_regex_impl.py:33-35 | the concatenation of two balanced texts is balanced |
| Syntax.BalancedWrap | src/WordyRegex/wordy_regex_impl.py:102-109 | an opener that opens one group, balanced text and `)` give balanced text |
| Syntax.RunLiteral | src/WordyRegex/wordy_regex_impl.py:9-11 | literal-only text leaves the nesting depth unchanged |
| WordyRegex.Coerce | src/WordyRegex/wordy_regex_impl.py:9-15 | `_pattern2str`: succeeds exactly for a `str` or a `Pattern`, otherwise fails with the "expected str or Pattern" error; the result embeds the argument (literal text unescaping to the string, or the pattern's text) and is balanced |
| WordyRegex.NewPattern | src/WordyRegex/wordy_regex_impl.py:20-30 | the constructor accepts exactly a `str`, otherwise fails; escaped text embeds the string and is balanced; unescaped text is the string itself |
| WordyRegex.Then | src/WordyRegex/wordy_regex_impl.py:33-35 | fails exactly on a non-coercible argument; the old text is kept as a prefix, the rest embeds the argument, and balance is preserved |
| WordyRegex.LineStart | src/WordyRegex/wordy_regex_impl.py:38-41 | the text is `^`, balanced |
| WordyRegex.LineEnd | src/WordyRegex/wordy_regex_impl.py:44-46 | one character longer, old text as prefix, last character `$`, balance preserved |
| WordyRegex.AnyChar | src/WordyRegex/wordy_regex_impl.py:49-52 | the text is `.`, balanced |
| WordyRegex.SucceededBy | src/WordyRegex/wordy_regex_impl.py:64-70 | the current text followed by `(?=`, the coerced argument and `)`; fails exactly on a non-coercible argument; balance preserved |
| WordyRegex.SucceededByNot | src/WordyRegex/wordy_regex_impl.py:73-79 | the same with `(?!` |
| WordyRegex.PreceededBy | src/WordyRegex/wordy_regex_impl.py:82-89 | only `(?<=`, the coerced argument and `)`, with no current text; fails exactly on a non-coercible argument; balanced |
| WordyRegex.PreceededByNot | src/WordyRegex/wordy_regex_impl.py:92-99 | the same with `(?<!` |
| WordyRegex.PreceededByOn | src/WordyRegex/wordy_regex_impl.py:82-89 | corrected lookbehind: the assertion followed by the current text; balance preserved |
| WordyRegex.PreceededByNotOn | src/WordyRegex/wordy_regex_impl.py:92-99 | corrected negative lookbehind, likewise |
| WordyRegex.Group | src/WordyRegex/wordy_regex_impl.py:102-109 | non-capturing whatever the name when `catch` is false; named when the name is truthy; plain capturing otherwise; balanced when the text is balanced and the name has no bracket, parenthesis or backslash |
| WordyRegex.BackrefByName | src/WordyRegex/wordy_regex_impl.py:112-115 | the text is `(?P=name)`, balanced for a plain name |
| WordyRegex.BackrefById | src/WordyRegex/wordy_regex_impl.py:118-121 | a backslash followed by the id's decimal digits: they read back as the id and have no leading zero (a `0` digit only for id 0, as `\0`); balanced |
| WordyRegex.BackrefByIdGrouped | src/WordyRegex/wordy_regex_impl.py:118-121 | the corrected back reference `(?:\N)`: the id's digits between `(?:\` and `)`, read back as the id, with no leading zero (`(?:\0)` only for id 0); balanced |
| WordyRegex.CondGroupMatch | src/WordyRegex/wordy_regex_impl.py:124-129 | `(?(name)` then both coerced branches separated by `\|` then `)`; fails exactly when either branch is not coercible; balanced for a plain name |
| WordyRegex.Quantified | src/WordyRegex/wordy_regex_impl.py:132-147 | appends the quantifier and, when lazy, `?`; old text kept as prefix; balance preserved |
| WordyRegex.ZeroOrMore | src/WordyRegex/wordy_regex_impl.py:132-135 | the quantified text with `*` |
| WordyRegex.OneOrMore | src/WordyRegex/wordy_regex_impl.py:138-141 | the quantified text with `+` |
| WordyRegex.ZeroOrOne | src/WordyRegex/wordy_regex_impl.py:144-147 | the quantified text with `?` |
| WordyRegex.Optional | src/WordyRegex/wordy_regex_impl.py:150-152 | the same pattern as `zeroOrOne` |
| WordyRegex.RepeatSuffixPlain | src/WordyRegex/wordy_regex_impl.py:158-161 | the repetition suffix contains no grouping or escaping character |
| WordyRegex.Repeat | src/WordyRegex/wordy_regex_impl.py:155-161 | fails exactly when both bounds are given and `min >= max`, whatever `exact` is; otherwise `{exact}` for a truthy `exact`, else `{min,max}` with absent bounds empty and the lazy mark; balance preserved |
| WordyRegex.CoerceAll | src/WordyRegex/wordy_regex_impl.py:167 | succeeds exactly when every argument is coercible; the parts are the arguments coerced one by one, in order |
| WordyRegex.Join | src/WordyRegex/wordy_regex_impl.py:168 | `'\|'.join`: empty for no parts; otherwise as long as the parts plus one separator between each pair of neighbours, and starting with the first part |
| WordyRegex.Concat | src/WordyRegex/wordy_regex_impl.py:178 | `''.join`: exactly as long as the parts together, starting with the first part |
| WordyRegex.JoinBalanced | src/WordyRegex/wordy_regex_impl.py:168 | joining balanced parts with a plain separator is balanced |
| WordyRegex.ConcatBalanced | src/WordyRegex/wordy_regex_impl.py:178 | concatenating balanced parts is balanced |
| WordyRegex.CoercedBalanced | src/WordyRegex/wordy_regex_impl.py:164-178 | coerced strings and balanced patterns join and concatenate to balanced text |
| WordyRegex.AnyOf | src/WordyRegex/wordy_regex_impl.py:164-171 | the coerced arguments joined by `\|`, in a group when `group` is set; fails exactly on a non-coercible argument; balanced |
| WordyRegex.Seq | src/WordyRegex/wordy_regex_impl.py:174-178 | the coerced arguments concatenated; fails exactly on a non-coercible argument; balanced |
| PatternLaws.ThenAllConcat | src/WordyRegex/wordy_regex_impl.py:33-35 | chaining `then` over arguments appends their coerced concatenation, or fails when any is not coercible |
| PatternLaws.SeqIsRepeatedThen | src/WordyRegex/wordy_regex_impl.py:174-178 | `seq(*args)` is the empty pattern followed by `then` on each argument |
| PatternLaws.ThenAssociative | src/WordyRegex/wordy_regex_impl.py:33-35 | `p.then(q.then(a))` equals `p.then(q).then(a)` |
| PatternLaws.ThenLiterals | src/WordyRegex/wordy_regex_impl.py:20-35 | `Pattern(s).then(t)` equals `Pattern(s + t)` |
| PatternLaws.BackrefGroupedThen | src/WordyRegex/wordy_regex_impl.py:33-35 | whatever `then` appends after the corrected reference, the run of digits after `(?:\` is exactly the id's digits and reads as the id |
| PatternLaws.PreceededByOnIsThen | src/WordyRegex/wordy_regex_impl.py:82-99 | the corrected lookbehinds are the static ones followed by `then(p)` |
| PatternLaws.SplitBarsLiteralPrefix | src/WordyRegex/wordy_regex_impl.py:168 | literal text contains no unescaped `\|`, so it stays inside the first alternative |
| PatternLaws.SplitJoin | src/WordyRegex/wordy_regex_impl.py:168 | splitting a `\|`-join of literal texts at unescaped bars gives the texts back |
| PatternLaws.AnyOfLiterals | src/WordyRegex/wordy_regex_impl.py:164-171 | `anyOf` on plain strings, split at unescaped bars and unescaped, gives back exactly the strings, with or without the group |
| CharSet.ConstantsWellFormed | src/WordyRegex/wordy_regex_impl.py:188-200 | every constant is balanced; `lineStart` and `anyChar` agree with the `Pattern` factories |
| CharSet.ReplaceChar | src/WordyRegex/wordy_regex_impl.py:205-207 | `str.replace` of one character: text without that character is unchanged, and each occurrence changes the length by the replacement's length minus one |
| CharSet.BracketEscape | src/WordyRegex/wordy_regex_impl.py:202-208 | the escaped extras never start with `^`, `-` or `]` and are at least as long as the input |
| CharSet.BracketEscapeRoundTrip | src/WordyRegex/wordy_regex_impl.py:202-208 | unescaping the escaped extras gives them back |
| CharSet.BracketEscapeLiteral | src/WordyRegex/wordy_regex_impl.py:202-208 | no backslash, `^`, `-` or `]` is left bare in the escaped extras |
| CharSet.BracketLiteralInverse | src/WordyRegex/wordy_regex_impl.py:202-208 | bracket-literal text is the escape of its own unescaping |
| CharSet.BackslashPass | src/WordyRegex/wordy_regex_impl.py:205 | doubling the backslashes gives the state the loop starts from |
| CharSet.SpecialPass | src/WordyRegex/wordy_regex_impl.py:206-207 | each pass escapes one more bracket special and leaves the escapes already made intact |
| CharSet.AllPasses | src/WordyRegex/wordy_regex_impl.py:204-208 | after all passes the text is the one-pass bracket escape |
| CharSet.Escape | src/WordyRegex/wordy_regex_impl.py:202-208 | `_escape` with its loop computes the bracket escape of its input |
| CharSet.Ranges | src/WordyRegex/wordy_regex_impl.py:216-222 | the range text is non-empty exactly when a flag is set; its length is a multiple of three and at most nine, and it starts at `0`, `a` or `A` |
| CharSet.RangesShape | src/WordyRegex/wordy_regex_impl.py:216-222 | the range text is a run of three-character ranges `x-y`: a `-` stands exactly at the middle of each |
| CharSet.CharsetText | src/WordyRegex/wordy_regex_impl.py:211-225 | the class text starts with `[` and ends with `]`; its second character is `^` exactly under `reverse`; it holds more than the brackets (and the `^`) exactly when a flag is set or extras are given |
| CharSet.ClassBody | src/WordyRegex/wordy_regex_impl.py:216-224 | the class body is non-empty exactly when a flag is set or extras are given; it never starts with `^` or `]`; every `]` in it is escaped |
| CharSet.ClassBalanced | src/WordyRegex/wordy_regex_impl.py:223-224 | a class with such a body is balanced exactly when the body is non-empty |
| CharSet.CharsetBalanced | src/WordyRegex/wordy_regex_impl.py:211-225 | the class text is balanced exactly when it lists something |
| CharSet.RangesItems | src/WordyRegex/wordy_regex_impl.py:217-222 | the ranges admit digits, lower case and upper case exactly as the flags ask, all three under `alphanum` |
| CharSet.ClassMeaning | src/WordyRegex/wordy_regex_impl.py:223-224 | a leading `^` negates the class and nothing else does |
| CharSet.CharsetMeaning | src/WordyRegex/wordy_regex_impl.py:211-225 | a non-empty class admits exactly the wanted characters (flag ranges or extras), or exactly the others with `reverse` |
| CharSet.Charset | src/WordyRegex/wordy_regex_impl.py:211-225 | the method builds the class text; it is balanced exactly when non-empty, and then admits exactly the wanted characters (or the others with `reverse`) |
| Scenarios.ThenScenario | test/test_wordy_regex.py:15-18 | `Pattern(h).then(' ' + w).then(t)` is `h\ w` then `t` for a tail without special characters, such as `!` |
| Scenarios.LineAnchorsScenario | test/test_wordy_regex.py:21-28 | `Pattern(h).lineEnd()` is `h$`; `lineStart().then(h).lineEnd()` is `^h$` |
| Scenarios.LookaheadScenario | test/test_wordy_regex.py:31-34 | `Pattern(h).succeededBy(' ' + w)` is `h(?=\ w)` |
| Scenarios.NegativeLookaheadScenario | test/test_wordy_regex.py:36-38 | `Pattern(h).succeededByNot(' ' + w)` is `h(?!\ w)` |
| Scenarios.LookbehindScenario | src/WordyRegex/wordy_regex_impl.py:82-89 | `preceededBy(h + ' ')` is `(?<=h\ )` alone |
| Scenarios.NegativeLookbehindScenario | src/WordyRegex/wordy_regex_impl.py:92-99 | `preceededByNot(h + ' ')` is `(?<!h\ )` alone |
| Scenarios.LookbehindThenScenario | src/WordyRegex/wordy_regex_impl.py:82-89 | the lookbehind followed by `then(w)` is `(?<=h\ )w` |
| Scenarios.LookbehindTestMismatch | test/test_wordy_regex.py:40-46 | the code's lookbehind differs from the tested `(?<=h\ )w`, and the corrected one produces it |
| Scenarios.QuantifierScenario | test/test_wordy_regex.py:49-57 | each quantifier, greedy or lazy, then `w` gives `h*w`, `h*?w`, and likewise for `+` and `?` |
| Scenarios.GroupScenario | test/test_wordy_regex.py:60-69 | `(?:h)`, `(h)`, `(?P<n>h)`, `(?:h)` when a name is given without `catch`, and `(?P=n)` |
| Scenarios.BackrefScenario | test/test_wordy_regex.py:70-71 | `backrefById(2)` is `\2` |
| Scenarios.BackrefDigitCapture | src/WordyRegex/wordy_regex_impl.py:118-121 | `backrefById(n).then(s)` with `s` starting with a digit: the digit run after the backslash is longer than the id's digits |
| Scenarios.BackrefTenScenario | src/WordyRegex/wordy_regex_impl.py:33-35 | `backrefById(1).then('0')` is exactly `backrefById(10)` |
| Scenarios.InfixEscapes | test/test_wordy_regex.py:72-73 | a special character between two words gets exactly one backslash |
| Scenarios.CondGroupScenario | test/test_wordy_regex.py:72-73 | `condGroupMatch(n, a+b, c*d)` is `(?(n)a\+b\|c\*d)` |
| Scenarios.CondGroupEmptyScenario | src/WordyRegex/wordy_regex_impl.py:124-129 | the default empty second branch gives `(?(n)a\|)` |
| Scenarios.RepeatScenario | src/WordyRegex/wordy_regex_impl.py:155-161 | `min=3, max=3` fails even with `exact=4`; `{3,5}`, `{3,5}?`, `{4}` and `{,5}` otherwise |
| Scenarios.CharsetScenario | src/WordyRegex/wordy_regex_impl.py:211-225 | `charset('_', alphanum=True)` is `[0-9a-zA-Z_]` |
| Scenarios.CharsetAdmitsScenario | src/WordyRegex/wordy_regex_impl.py:211-225 | that class admits `a`, `1` and `_`, and rejects `-` |
| Scenarios.CharsetEscapeScenario | src/WordyRegex/wordy_regex_impl.py:202-225 | `charset('-^_', lower=True)` is `[a-z\-\^_]` |

## Left out

- `Pattern.compile` (`src/WordyRegex/wordy_regex_impl.py:181-183`) hands the text to `re.compile`, a call into the host engine, so it is not modelled. `Balanced` stands in for the part of "the engine accepts it" that the builder controls.
- `getPattern` and `__str__` return the stored text. This is the `text` field of the `Pattern` datatype.
- The internals of `re.escape` are not modelled. `ReEscape` is its documented per-character behaviour for Python 3.7 and later.
- Dynamic typing is reduced to `Arg = Str | Pat | Other`. `Other` stands for every value that is neither a `str` nor a `Pattern`. Error messages are reduced to the three `ArgError` cases.
- Default arguments are explicit parameters. `name=None` is `None`, `pat2=''` is `Str("")`, and an absent `repeat` bound is `None`.
- WordyRegex.Repeat: bounds and `exact` are natural numbers or absent. The `int()` conversion of string bounds is not modelled. Neither are negative values or values `int()` rejects.
- WordyRegex.Group, WordyRegex.BackrefByName, WordyRegex.CondGroupMatch: the group name is a string. The source formats any object into the text with an f-string; names of other types are not modelled.
- CharSet.Charset: the extras `pat` are a string. A non-string `pat` makes the source fail at `pat.replace` with an `AttributeError`; that failure is not modelled.
- Syntax.Run: the reading of regular-expression text is simplified. Comment groups `(?#...)` and inline flags such as `(?x)` are not interpreted, so a `)` or `[` inside a comment counts as structure. `Balanced` does not judge quantifier placement, that a lookbehind has a fixed width (`(?<=a*)` counts as balanced), or that a conditional group has at most two branches (a Pattern branch holding a top-level `|` gives three). Nor does it judge token boundaries between fragments: after a `\N` with a one-digit id, a following digit is read as part of the reference.
- WordyRegex.BackrefById: what the engine makes of the reference text is not modelled. Python's parser reads `\0` and three octal digits as octal escapes and at most two digits as a group number.
- WordyRegex.BackrefByIdGrouped: for the same reason, `\N` cannot refer to group 0 or to a group numbered 100 or more. The corrected form is right only for ids 1 to 99, and `BackrefGroupedThen` speaks of the plain run of digits, not of Python's reading of it.
- WordyRegex.BackrefById: the id is a natural number. Other values that the f-string formats are not modelled.
- WordyRegex.Group: the name is not validated, as in the source. Balance is proved only for names without brackets, parentheses or backslashes.
- WordyRegex.Quantified: `Balanced` does not judge where a quantifier stands. A quantifier after an anchor or a multi-character literal still counts as balanced.
- CharSet.CharsetMeaning: stated only when the class lists something. `[]` and `[^]` are not valid classes for the engine, and `CharsetBalanced` shows they are not balanced.
- CharSet.ClassMeaning: the class interpreter reads an escaped character as itself and reads only `a-b` ranges. That is all `charset` produces. Escapes such as `\d` inside a class are not interpreted.
- `examples/common.py`, the demo scripts and the unit-test harness are not part of this model. The test file's import of `Special`, which the library does not define, is also not modelled.
- Scenarios: the test vectors are stated for any words of lower-case letters rather than only for `hello` and `world`. The `!` of `test_then` is covered as any tail without special characters.

## Findings

| source | as written | input that shows it | evidently intended | confidence | as-written member | corrected member |
|---|---|---|---|---|---|---|
| src/WordyRegex/wordy_regex_impl.py:82-99 | `preceededBy`/`preceededByNot` are static methods returning only the lookbehind, so the pattern they are called on is dropped | `Pattern('world').preceededBy('hello ')` gives `(?<=hello\ )`, while test/test_wordy_regex.py:40-46 expects `(?<=hello\ )world` | the lookbehind placed in front of the current text | high (method description and test agree); not executed | Scenarios.LookbehindTestMismatch | WordyRegex.PreceededByOn |
| src/WordyRegex/wordy_regex_impl.py:118-121 | `backrefById` emits `\N` with nothing after the digits. `then` (:33-35) appends the next text directly, and `re.escape` leaves digits unescaped | `backrefById(1).then('0')` gives `\10`, the text of `backrefById(10)`, which the engine reads as a reference to group 10; this holds for one-digit ids (a digit after `\19` stays literal, since Python reads at most two digits as a group number) | the reference closed off, as in `(?:\N)`, so that a literal after it stays literal | medium (no test composes a reference with a following digit); not executed | Scenarios.BackrefDigitCapture | WordyRegex.BackrefByIdGrouped |

=== FILE: charset.dfy ===
/**
 * `CharSet`: fixed Patterns for the usual escape sequences and anchors, and
 * the builder of bracket classes `[...]` with its bracket-specific escaper.
 */
module CharSet {
  import opened Wrappers
  import opened Escaping
  import opened Numerals
  import opened Syntax
  import opened WordyRegex

  const StrStart: Pattern := Pattern("\\A")
  const StrEnd: Pattern := Pattern("\\Z")
  const Digit: Pattern := Pattern("\\d")
  const NonDigit: Pattern := Pattern("\\D")
  const Space: Pattern := Pattern("\\s")
  const NonSpace: Pattern := Pattern("\\S")
  const WordChar: Pattern := Pattern("\\w")
  const NonWordChar: Pattern := Pattern("\\W")
  const WordBoundary: Pattern := Pattern("\\b")
  const NonWordBoundary: Pattern := Pattern("\\B")
  const LineStart: Pattern := Pattern("^")
  const LineEnd: Pattern := Pattern("$")
  const AnyChar: Pattern := Pattern(".")

  /** Every fixed Pattern above. */
  const Constants: seq<Pattern> := [StrStart, StrEnd, Digit, NonDigit, Space, NonSpace, WordChar, NonWordChar,
                                    WordBoundary, NonWordBoundary, LineStart, LineEnd, AnyChar]

  /** The constants are balanced, and the anchors agree with the Pattern factories. */
  lemma ConstantsWellFormed()
    ensures forall i :: 0 <= i < |Constants| ==> Balanced(Constants[i].text)
    ensures LineStart == WordyRegex.LineStart() && AnyChar == WordyRegex.AnyChar()
  {
  }

  // ---------------------------------------------------------------------
  // `_escape`

  /** The characters `_escape` protects after it has doubled the backslashes, in its order. */
  const BracketSpecials: string := "^-]"

  predicate IsBracketSpecial(c: char) {
    c == '\\' || c == '^' || c == '-' || c == ']'
  }

  /** `s.replace(c, repl)` for a one-character `c`. */
  function ReplaceChar(s: string, c: char, repl: string): (r: string)
    ensures (forall i :: 0 <= i < |s| ==> s[i] != c) ==> r == s
    ensures |r| == |s| + Occurrences(s, c) * (|repl| - 1)
    decreases |s|
  {
    if s == [] then []
    else
      var head := if s[0] == c then repl else [s[0]];
      var n := Occurrences(s[1..], c);
      assert s[0] == c ==> (n + 1) * (|repl| - 1) == n * (|repl| - 1) + (|repl| - 1);
      head + ReplaceChar(s[1..], c, repl)
  }

  /** How many times `c` occurs in `s`. */
  function Occurrences(s: string, c: char): nat
    decreases |s|
  {
    if s == [] then 0 else (if s[0] == c then 1 else 0) + Occurrences(s[1..], c)
  }

  /**
   * Text inside brackets that reads as literal characters only: a backslash
   * only ever introduces a bracket special, and no bracket special stands bare.
   */
  predicate BracketLiteral(t: string)
    decreases |t|
  {
    if t == [] then true
    else if t[0] == '\\' then |t| >= 2 && IsBracketSpecial(t[1]) && BracketLiteral(t[2..])
    else !IsBracketSpecial(t[0]) && BracketLiteral(t[1..])
  }

  /** What `_escape` computes: a backslash before each backslash, `^`, `-` and `]`. */
  function BracketEscape(s: string): (r: string)
    ensures |r| > 0 ==> r[0] != '^' && r[0] != '-' && r[0] != ']'
    ensures |s| <= |r|
    decreases |s|
  {
    if s == [] then []
    else (if IsBracketSpecial(s[0]) then ['\\', s[0]] else [s[0]]) + BracketEscape(s[1..])
  }

  /** Unescaping the escaped extras gives them back. */
  lemma {:induction false} BracketEscapeRoundTrip(s: string)
    ensures Unescape(BracketEscape(s)) == s
    decreases |s|
  {
    if s != [] {
      var head := if IsBracketSpecial(s[0]) then ['\\', s[0]] else [s[0]];
      var rest := BracketEscape(s[1..]);
      BracketEscapeRoundTrip(s[1..]);
      assert BracketEscape(s) == head + rest;
      if |head| == 2 {
        assert (head + rest)[0] == '\\' && (head + rest)[1] == s[0] && (head + rest)[2..] == rest;
      } else {
        assert (head + rest)[0] == s[0] && (head + rest)[1..] == rest;
      }
      assert s == [s[0]] + s[1..];
    }
  }

  /** No `^`, `-`, `]` or backslash in the escaped extras is left bare. */
  lemma {:induction false} BracketEscapeLiteral(s: string)
    ensures BracketLiteral(BracketEscape(s))
    decreases |s|
  {
    if s != [] {
      var head := if IsBracketSpecial(s[0]) then ['\\', s[0]] else [s[0]];
      var rest := BracketEscape(s[1..]);
      BracketEscapeLiteral(s[1..]);
      assert BracketEscape(s) == head + rest;
      if |head| == 2 {
        assert (head + rest)[0] == '\\' && (head + rest)[1] == s[0] && (head + rest)[2..] == rest;
      } else {
        assert (head + rest)[0] == s[0] && (head + rest)[1..] == rest;
      }
    }
  }

  /** The converse round trip: bracket-literal text is the escape of its own unescaping. */
  lemma {:induction false} BracketLiteralInverse(t: string)
    requires BracketLiteral(t)
    ensures BracketEscape(Unescape(t)) == t
    decreases |t|
  {
    if t != [] {
      if t[0] == '\\' {
        BracketLiteralInverse(t[2..]);
        var u := Unescape(t[2..]);
        assert ([t[1]] + u)[0] == t[1] && ([t[1]] + u)[1..] == u;
        assert t == [t[0], t[1]] + t[2..];
      } else {
        BracketLiteralInverse(t[1..]);
        var u := Unescape(t[1..]);
        assert ([t[0]] + u)[0] == t[0] && ([t[0]] + u)[1..] == u;
        assert t == [t[0]] + t[1..];
      }
    }
  }

  /** The text after the backslash pass and the first `k` passes of `_escape`'s loop. */
  function EscapedUpTo(s: string, k: nat): string
    requires k <= |BracketSpecials|
    decreases |s|
  {
    if s == [] then [] else EscapedCharUpTo(s[0], k) + EscapedUpTo(s[1..], k)
  }

  /** One character after the backslash pass and the first `k` passes. */
  function EscapedCharUpTo(x: char, k: nat): (r: string)
    requires k <= |BracketSpecials|
    ensures 1 <= |r| <= 2 && r[|r| - 1] == x
    ensures |r| == 2 <==> x == '\\' || x in BracketSpecials[..k]
  {
    if x == '\\' || x in BracketSpecials[..k] then ['\\', x] else [x]
  }

  /** The `k`-th pass on one character already processed by the earlier passes. */
  lemma CharPass(x: char, k: nat)
    requires k < |BracketSpecials|
    ensures ReplaceChar(EscapedCharUpTo(x, k), BracketSpecials[k], ['\\', BracketSpecials[k]]) == EscapedCharUpTo(x, k + 1)
  {
    var ch := BracketSpecials[k];
    var head := EscapedCharUpTo(x, k);
    assert BracketSpecials[..k + 1] == BracketSpecials[..k] + [ch];
    if |head| == 2 {
      assert x != ch;
      assert head == [head[0]] + [x] && [x][1..] == [];
      ReplaceCharAppend([head[0]], [x], ch, ['\\', ch]);
    } else {
      assert head[1..] == [];
    }
  }

  lemma {:induction false} ReplaceCharAppend(a: string, b: string, c: char, repl: string)
    ensures ReplaceChar(a + b, c, repl) == ReplaceChar(a, c, repl) + ReplaceChar(b, c, repl)
    decreases |a|
  {
    if a == [] {
      assert a + b == b;
    } else {
      assert (a + b)[0] == a[0] && (a + b)[1..] == a[1..] + b;
      ReplaceCharAppend(a[1..], b, c, repl);
    }
  }

  /** Doubling the backslashes is the state before the loop. */
  lemma {:induction false} BackslashPass(s: string)
    ensures ReplaceChar(s, '\\', "\\\\") == EscapedUpTo(s, 0)
    decreases |s|
  {
    if s != [] {
      BackslashPass(s[1..]);
    }
  }

  /** One pass of the loop escapes one more bracket special and leaves the earlier escapes alone. */
  lemma {:induction false} SpecialPass(s: string, k: nat)
    requires k < |BracketSpecials|
    ensures ReplaceChar(EscapedUpTo(s, k), BracketSpecials[k], ['\\', BracketSpecials[k]]) == EscapedUpTo(s, k + 1)
    decreases |s|
  {
    if s != [] {
      var ch := BracketSpecials[k];
      SpecialPass(s[1..], k);
      ReplaceCharAppend(EscapedCharUpTo(s[0], k), EscapedUpTo(s[1..], k), ch, ['\\', ch]);
      CharPass(s[0], k);
    }
  }

  lemma {:induction false} AllPasses(s: string)
    ensures EscapedUpTo(s, |BracketSpecials|) == BracketEscape(s)
    decreases |s|
  {
    if s != [] {
      assert BracketSpecials[..|BracketSpecials|] == BracketSpecials;
      AllPasses(s[1..]);
    }
  }

  /** `CharSet._escape(pat)`: the backslash pass, then one replacing pass per bracket special. */
  method Escape(pat: string) returns (r: string)
    ensures r == BracketEscape(pat)
  {
    r := ReplaceChar(pat, '\\', "\\\\");
    BackslashPass(pat);
    for i := 0 to |BracketSpecials|
      invariant r == EscapedUpTo(pat, i)
    {
      var ch := BracketSpecials[i];
      SpecialPass(pat, i);
      r := ReplaceChar(r, ch, ['\\', ch]);
    }
    AllPasses(pat);
  }

  // ---------------------------------------------------------------------
  // `charset`

  /** The ranges `charset` puts in front of the escaped extra characters. */
  function Ranges(digit: bool, lower: bool, upper: bool, alphanum: bool): (r: string)
    ensures |r| > 0 <==> digit || lower || upper || alphanum
    ensures |r| > 0 ==> r[0] == '0' || r[0] == 'a' || r[0] == 'A'
    ensures |r| <= 9 && |r| % 3 == 0
  {
    if alphanum then "0-9a-zA-Z"
    else (if digit then "0-9" else "") + (if lower then "a-z" else "") + (if upper then "A-Z" else "")
  }

  /** The range text is a run of three-character ranges `x-y`: a `-` stands exactly in the middle of each. */
  lemma RangesShape(digit: bool, lower: bool, upper: bool, alphanum: bool)
    ensures var r := Ranges(digit, lower, upper, alphanum);
            forall i :: 0 <= i < |r| ==> (r[i] == '-' <==> i % 3 == 1)
  {
  }

  /** The bracket class `charset` builds. */
  function CharsetText(pat: string, digit: bool, lower: bool, upper: bool, reverse: bool, alphanum: bool): (r: string)
    ensures |r| >= 2 && r[0] == '[' && r[|r| - 1] == ']'
    ensures reverse <==> |r| > 2 && r[1] == '^'
    ensures |r| > (if reverse then 3 else 2) <==> NonEmptyBody(pat, digit, lower, upper, alphanum)
  {
    var neg := if reverse then "^" else "";
    var body := ClassBody(pat, digit, lower, upper, alphanum);
    assert |body| > 0 && !reverse ==> ("[" + (neg + body + "]"))[1] == body[0];
    "[" + (neg + body + "]")
  }

  /** The class has at least one member to list; `[]` and `[^]` are not valid classes. */
  predicate NonEmptyBody(pat: string, digit: bool, lower: bool, upper: bool, alphanum: bool) {
    digit || lower || upper || alphanum || pat != ""
  }

  /** The characters the caller asked for, before `reverse` is applied. */
  predicate Wanted(c: char, pat: string, digit: bool, lower: bool, upper: bool, alphanum: bool) {
    || (if alphanum then IsDigit(c) || 'a' <= c <= 'z' || 'A' <= c <= 'Z'
        else (digit && IsDigit(c)) || (lower && 'a' <= c <= 'z') || (upper && 'A' <= c <= 'Z'))
    || c in pat
  }

  /**
   * `CharSet.charset(pat, digit, lower, upper, reverse, alphanum)`: `[`, `^`
   * if `reverse`, the ranges (all three when `alphanum`, else those asked for,
   * digits, lower case, upper case), the escaped extras, `]`.
   */
  method Charset(pat: string, digit: bool, lower: bool, upper: bool, reverse: bool, alphanum: bool)
    returns (p: Pattern)
    ensures p.text == CharsetText(pat, digit, lower, upper, reverse, alphanum)
    ensures NonEmptyBody(pat, digit, lower, upper, alphanum) <==> Balanced(p.text)
    ensures NonEmptyBody(pat, digit, lower, upper, alphanum) ==>
              forall c :: ClassAccepts(p.text, c) <==> Wanted(c, pat, digit, lower, upper, alphanum) != reverse
  {
    var escaped := Escape(pat);
    var expr := "";
    if alphanum {
      expr := expr + "0-9a-zA-Z";
    } else {
      if digit { expr := expr + "0-9"; }
      if lower { expr := expr + "a-z"; }
      if upper { expr := expr + "A-Z"; }
    }
    assert expr == Ranges(digit, lower, upper, alphanum);
    var rev := if reverse then "^" else "";
    p := Pattern("[" + (rev + (expr + escaped) + "]"));
    CharsetBalanced(pat, digit, lower, upper, reverse, alphanum);
    if NonEmptyBody(pat, digit, lower, upper, alphanum) {
      forall c ensures ClassAccepts(p.text, c) <==> Wanted(c, pat, digit, lower, upper, alphanum) != reverse {
        CharsetMeaning(pat, digit, lower, upper, reverse, alphanum, c);
      }
    }
  }

  // ---------------------------------------------------------------------
  // Well-formedness of the class text

  /** Text in which every `]` is escaped and no escape dangles. */
  predicate NoClose(t: string)
    decreases |t|
  {
    if t == [] then true
    else if t[0] == '\\' then |t| >= 2 && NoClose(t[2..])
    else t[0] != ']' && NoClose(t[1..])
  }

  lemma {:induction false} BracketLiteralNoClose(t: string)
    requires BracketLiteral(t)
    ensures NoClose(t)
    decreases |t|
  {
    if t != [] {
      if t[0] == '\\' {
        BracketLiteralNoClose(t[2..]);
      } else {
        BracketLiteralNoClose(t[1..]);
      }
    }
  }

  lemma {:induction false} SkipNoClose(a: string, t: string)
    requires NoClose(a)
    ensures SkipToClose(a + t) == SkipToClose(t)
    decreases |a|
  {
    if a == [] {
      assert a + t == t;
    } else if a[0] == '\\' {
      assert (a + t)[0] == a[0] && (a + t)[2..] == a[2..] + t;
      SkipNoClose(a[2..], t);
    } else {
      assert (a + t)[0] == a[0] && (a + t)[1..] == a[1..] + t;
      SkipNoClose(a[1..], t);
    }
  }

  lemma {:induction false} PlainNoClose(t: string)
    requires Plain(t)
    ensures NoClose(t)
    decreases |t|
  {
    if t != [] {
      PlainNoClose(t[1..]);
    }
  }

  lemma RangesNoClose(digit: bool, lower: bool, upper: bool, alphanum: bool)
    ensures NoClose(Ranges(digit, lower, upper, alphanum))
  {
    var r := Ranges(digit, lower, upper, alphanum);
    assert forall i :: 0 <= i < |r| ==> r[i] in "0-9azAZ";
    PlainNoClose(r);
  }

  lemma {:induction false} NoCloseAppend(a: string, b: string)
    requires NoClose(a) && NoClose(b)
    ensures NoClose(a + b)
    decreases |a|
  {
    if a == [] {
      assert a + b == b;
    } else if a[0] == '\\' {
      assert (a + b)[0] == a[0] && (a + b)[2..] == a[2..] + b;
      NoCloseAppend(a[2..], b);
    } else {
      assert (a + b)[0] == a[0] && (a + b)[1..] == a[1..] + b;
      NoCloseAppend(a[1..], b);
    }
  }

  /** A class `[` + optional `^` + body + `]` is balanced exactly when its body is non-empty. */
  lemma ClassBalanced(neg: string, body: string)
    requires neg == "" || neg == "^"
    requires NoClose(body)
    requires |body| > 0 ==> body[0] != '^' && body[0] != ']'
    ensures Balanced("[" + (neg + body + "]")) <==> |body| > 0
  {
    if |body| > 0 {
      ClassCloses(neg, body);
      RunClass(neg + body + "]");
    } else {
      assert neg + body + "]" == neg + "]";
      EmptyClass();
    }
  }

  lemma RunClass(s: string)
    requires AfterClass(s) == Some([])
    ensures Balanced("[" + s)
  {
    var t := "[" + s;
    assert t[0] == '[' && t[1..] == s;
  }

  /** `[]` and `[^]` do not close: the `]` right after the opening is a member. */
  lemma EmptyClass()
    ensures !Balanced("[" + "]") && !Balanced("[" + "^]")
  {
    assert ("[" + "]")[1..] == "]" && ("[" + "^]")[1..] == "^]";
    assert AfterClass("]") == None;
    assert AfterClass("^]") == None;
  }

  lemma ClassCloses(neg: string, body: string)
    requires neg == "" || neg == "^"
    requires NoClose(body)
    requires |body| > 0 && body[0] != '^' && body[0] != ']'
    ensures AfterClass(neg + body + "]") == Some([])
  {
    var s := neg + body + "]";
    var s1 := if |s| > 0 && s[0] == '^' then s[1..] else s;
    assert s1 == body + "]" by {
      if neg == "^" { assert s[0] == '^' && s[1..] == body + "]"; } else { assert s == body + "]"; }
    }
    assert s1[0] == body[0];
    SkipNoClose(body, "]");
    assert SkipToClose("]") == Some([]);
  }

  /** The ranges and the escaped extras, the text between `[` (or `[^`) and `]`. */
  function ClassBody(pat: string, digit: bool, lower: bool, upper: bool, alphanum: bool): (body: string)
    ensures |body| > 0 <==> NonEmptyBody(pat, digit, lower, upper, alphanum)
    ensures |body| > 0 ==> body[0] != '^' && body[0] != ']'
    ensures NoClose(body)
  {
    var rng := Ranges(digit, lower, upper, alphanum);
    var esc := BracketEscape(pat);
    assert |rng| > 0 <==> digit || lower || upper || alphanum;
    assert |esc| > 0 <==> pat != "";
    assert |rng| > 0 ==> (rng + esc)[0] == rng[0];
    assert |rng| == 0 ==> rng + esc == esc;
    RangesNoClose(digit, lower, upper, alphanum);
    BracketEscapeLiteral(pat);
    BracketLiteralNoClose(esc);
    NoCloseAppend(rng, esc);
    rng + esc
  }

  /** The class closes at its final `]` exactly when it lists something. */
  lemma CharsetBalanced(pat: string, digit: bool, lower: bool, upper: bool, reverse: bool, alphanum: bool)
    ensures NonEmptyBody(pat, digit, lower, upper, alphanum) <==>
            Balanced(CharsetText(pat, digit, lower, upper, reverse, alphanum))
  {
    var body := ClassBody(pat, digit, lower, upper, alphanum);
    var neg := if reverse then "^" else "";
    ClassBalanced(neg, body);
  }

  // ---------------------------------------------------------------------
  // Meaning of the class text

  /** A member of a bracket class: one character, or an inclusive range. */
  datatype Item = Lit(c: char) | Span(lo: char, hi: char)

  predicate Covers(it: Item, c: char) {
    match it
    case Lit(x) => c == x
    case Span(lo, hi) => lo <= c <= hi
  }

  predicate Accepts(items: seq<Item>, c: char)
    decreases |items|
  {
    |items| > 0 && (Covers(items[0], c) || Accepts(items[1..], c))
  }

  /** One class character: an escaped character stands for itself. */
  function Atom(s: string): (r: (char, string))
    requires s != []
    ensures |r.1| < |s|
  {
    if s[0] == '\\' && |s| >= 2 then (s[1], s[2..]) else (s[0], s[1..])
  }

  /** The members listed in a class body (the text between `[` or `[^` and `]`). */
  function Items(s: string): seq<Item>
    decreases |s|
  {
    if s == [] then []
    else
      var (lo, rest) := Atom(s);
      if |rest| >= 2 && rest[0] == '-' then
        var (hi, rest2) := Atom(rest[1..]);
        [Span(lo, hi)] + Items(rest2)
      else [Lit(lo)] + Items(rest)
  }

  /** Whether class text `text` admits character `c`, reading it as the host engine does. */
  predicate ClassAccepts(text: string, c: char) {
    |text| >= 2 && text[0] == '[' && text[|text| - 1] == ']' &&
    var body := text[1..|text| - 1];
    var negated := |body| > 0 && body[0] == '^';
    Accepts(Items(if negated then body[1..] else body), c) != negated
  }

  lemma {:induction false} AcceptsAppend(xs: seq<Item>, ys: seq<Item>, c: char)
    ensures Accepts(xs + ys, c) <==> Accepts(xs, c) || Accepts(ys, c)
    decreases |xs|
  {
    if xs == [] {
      assert xs + ys == ys;
    } else {
      assert (xs + ys)[0] == xs[0] && (xs + ys)[1..] == xs[1..] + ys;
      AcceptsAppend(xs[1..], ys, c);
    }
  }

  /** A three-character range in front of a tail is read as one span. */
  lemma ItemsSpan(lo: char, hi: char, tail: string)
    requires lo != '\\' && hi != '\\'
    ensures Items([lo, '-', hi] + tail) == [Span(lo, hi)] + Items(tail)
  {
    var s := [lo, '-', hi] + tail;
    assert s[0] == lo && s[1..][0] == '-' && s[1..][1..] == [hi] + tail;
    assert ([hi] + tail)[1..] == tail;
  }

  /** Escaped extras are read as one literal member per original character. */
  lemma {:induction false} ItemsEscaped(s: string)
    ensures |Items(BracketEscape(s))| == |s|
    ensures forall i :: 0 <= i < |s| ==> Items(BracketEscape(s))[i] == Lit(s[i])
    decreases |s|
  {
    if s != [] {
      var head := if IsBracketSpecial(s[0]) then ['\\', s[0]] else [s[0]];
      var rest := BracketEscape(s[1..]);
      assert BracketEscape(s) == head + rest;
      assert Atom(head + rest) == (s[0], rest) by {
        if |head| == 2 {
          assert (head + rest)[2..] == rest;
        } else {
          assert (head + rest)[1..] == rest;
        }
      }
      assert !(|rest| >= 2 && rest[0] == '-');
      ItemsEscaped(s[1..]);
    }
  }

  lemma {:induction false} AcceptsLiterals(s: string, c: char)
    ensures Accepts(Items(BracketEscape(s)), c) <==> c in s
    decreases |s|
  {
    ItemsEscaped(s);
    if s != [] {
      var items := Items(BracketEscape(s));
      ItemsEscaped(s[1..]);
      assert items[1..] == Items(BracketEscape(s[1..]));
      AcceptsLiterals(s[1..], c);
      assert c in s <==> c == s[0] || c in s[1..];
    }
  }

  /** The ranges part followed by a tail is read as the range spans, then the tail's members. */
  lemma RangesItems(digit: bool, lower: bool, upper: bool, alphanum: bool, tail: string, c: char)
    ensures Accepts(Items(Ranges(digit, lower, upper, alphanum) + tail), c) <==>
            (if alphanum then IsDigit(c) || 'a' <= c <= 'z' || 'A' <= c <= 'Z'
             else (digit && IsDigit(c)) || (lower && 'a' <= c <= 'z') || (upper && 'A' <= c <= 'Z'))
            || Accepts(Items(tail), c)
  {
    if alphanum {
      AlphanumItems(tail, c);
    } else {
      FlagItems(digit, lower, upper, tail, c);
    }
  }

  lemma AlphanumItems(tail: string, c: char)
    ensures Accepts(Items("0-9a-zA-Z" + tail), c) <==>
            IsDigit(c) || 'a' <= c <= 'z' || 'A' <= c <= 'Z' || Accepts(Items(tail), c)
  {
    var t3 := "A-Z" + tail;
    var t2 := "a-z" + t3;
    assert "0-9a-zA-Z" + tail == "0-9" + t2;
    SpanOrNothing(true, 'A', 'Z', tail, c);
    SpanOrNothing(true, 'a', 'z', t3, c);
    SpanOrNothing(true, '0', '9', t2, c);
  }

  lemma FlagItems(digit: bool, lower: bool, upper: bool, tail: string, c: char)
    ensures Accepts(Items(Ranges(digit, lower, upper, false) + tail), c) <==>
            (digit && IsDigit(c)) || (lower && 'a' <= c <= 'z') || (upper && 'A' <= c <= 'Z')
            || Accepts(Items(tail), c)
  {
    var u := if upper then "A-Z" else "";
    var l := if lower then "a-z" else "";
    var d := if digit then "0-9" else "";
    var t3 := u + tail;
    var t2 := l + t3;
    assert Ranges(digit, lower, upper, false) + tail == d + t2;
    SpanOrNothing(upper, 'A', 'Z', tail, c);
    SpanOrNothing(lower, 'a', 'z', t3, c);
    SpanOrNothing(digit, '0', '9', t2, c);
  }

  /** An optional range in front of a tail. */
  lemma SpanOrNothing(present: bool, lo: char, hi: char, tail: string, c: char)
    requires lo != '\\' && hi != '\\'
    ensures Accepts(Items((if present then [lo, '-', hi] else "") + tail), c) <==>
            (present && lo <= c <= hi) || Accepts(Items(tail), c)
  {
    if present {
      ItemsSpan(lo, hi, tail);
      AcceptsAppend([Span(lo, hi)], Items(tail), c);
      assert Accepts([Span(lo, hi)], c) <==> lo <= c <= hi by {
        assert [Span(lo, hi)][1..] == [];
      }
    } else {
      assert "" + tail == tail;
    }
  }

  /** Reading a class whose body does not start with `^`: negated exactly when `neg` is `^`. */
  lemma ClassMeaning(neg: string, body: string, c: char)
    requires neg == "" || neg == "^"
    requires |body| > 0 && body[0] != '^'
    ensures ClassAccepts("[" + (neg + body + "]"), c) <==> Accepts(Items(body), c) != (neg == "^")
  {
    var t := "[" + (neg + body + "]");
    assert t[1..|t| - 1] == neg + body;
    if neg == "^" {
      assert (neg + body)[0] == '^' && (neg + body)[1..] == body;
    } else {
      assert neg + body == body;
    }
  }

  /**
   * A class that lists something admits exactly the characters asked for,
   * or exactly the others when `reverse` is set.
   */
  lemma CharsetMeaning(pat: string, digit: bool, lower: bool, upper: bool, reverse: bool, alphanum: bool, c: char)
    requires NonEmptyBody(pat, digit, lower, upper, alphanum)
    ensures ClassAccepts(CharsetText(pat, digit, lower, upper, reverse, alphanum), c) <==>
            Wanted(c, pat, digit, lower, upper, alphanum) != reverse
  {
    var body := ClassBody(pat, digit, lower, upper, alphanum);
    var neg := if reverse then "^" else "";
    ClassMeaning(neg, body, c);
    RangesItems(digit, lower, upper, alphanum, BracketEscape(pat), c);
    AcceptsLiterals(pat, c);
  }
}

=== FILE: escaping.dfy ===
/**
 * Python's `re.escape` (3.7 and later), the one library routine the builder
 * calls: every character of a fixed special set gets a backslash in front of
 * it, every other character is copied unchanged.
 */
module Escaping {

  /**
   * The characters `re.escape` prefixes with a backslash: `()[]{}?*+-|^$\.&~#`,
   * space, tab, newline, carriage return, vertical tab and form feed.
   */
  predicate IsReSpecial(c: char) {
    || c == '(' || c == ')' || c == '[' || c == ']' || c == '{' || c == '}'
    || c == '?' || c == '*' || c == '+' || c == '-' || c == '|' || c == '^'
    || c == '$' || c == '\\' || c == '.' || c == '&' || c == '~' || c == '#'
    || c == ' ' || c == '\t' || c == '\n' || c == '\r' || c == '\U{B}' || c == '\U{C}'
  }

  /** Drops the backslash in front of every escaped character. */
  function Unescape(t: string): (r: string)
    ensures |r| <= |t|
    decreases |t|
  {
    if t == [] then []
    else if t[0] == '\\' && |t| >= 2 then [t[1]] + Unescape(t[2..])
    else [t[0]] + Unescape(t[1..])
  }

  /** What `re.escape` makes of one character: a backslash pair for a special one, else the character itself. */
  function EscapeChar(c: char): (r: string)
    ensures |r| == (if IsReSpecial(c) then 2 else 1) && r[|r| - 1] == c
    ensures |r| == 2 ==> r[0] == '\\'
  {
    if IsReSpecial(c) then ['\\', c] else [c]
  }

  /** `re.escape(s)`. */
  function ReEscape(s: string): (r: string)
    ensures |s| <= |r| <= 2 * |s|
    decreases |s|
  {
    if s == [] then []
    else EscapeChar(s[0]) + ReEscape(s[1..])
  }

  /** Unescaping the escaped text gives the original string back. */
  lemma {:induction false} ReEscapeRoundTrip(s: string)
    ensures Unescape(ReEscape(s)) == s
    decreases |s|
  {
    if s != [] {
      var head := EscapeChar(s[0]);
      var rest := ReEscape(s[1..]);
      ReEscapeRoundTrip(s[1..]);
      assert ReEscape(s) == head + rest;
      if |head| == 2 {
        assert (head + rest)[0] == '\\' && (head + rest)[1] == s[0] && (head + rest)[2..] == rest;
      } else {
        assert (head + rest)[0] == s[0] && (head + rest)[1..] == rest;
      }
      assert s == [s[0]] + s[1..];
    }
  }

  /** Escaped text reads as literal characters only. */
  lemma {:induction false} ReEscapeLiteral(s: string)
    ensures LiteralTokens(ReEscape(s))
    decreases |s|
  {
    if s != [] {
      var head := EscapeChar(s[0]);
      var rest := ReEscape(s[1..]);
      ReEscapeLiteral(s[1..]);
      assert ReEscape(s) == head + rest;
      if |head| == 2 {
        assert (head + rest)[0] == '\\' && (head + rest)[1] == s[0] && (head + rest)[2..] == rest;
      } else {
        assert (head + rest)[0] == s[0] && (head + rest)[1..] == rest;
      }
    }
  }

  /**
   * Text that reads as a sequence of literal characters only: each special
   * character is preceded by a backslash, and a backslash only ever
   * introduces a special character.
   */
  predicate LiteralTokens(t: string)
    decreases |t|
  {
    if t == [] then true
    else if t[0] == '\\' then |t| >= 2 && IsReSpecial(t[1]) && LiteralTokens(t[2..])
    else !IsReSpecial(t[0]) && LiteralTokens(t[1..])
  }

  /** Escaping distributes over concatenation. */
  lemma {:induction false} ReEscapeAppend(a: string, b: string)
    ensures ReEscape(a + b) == ReEscape(a) + ReEscape(b)
    decreases |a|
  {
    if a != [] {
      var head := EscapeChar(a[0]);
      assert (a + b)[0] == a[0] && (a + b)[1..] == a[1..] + b;
      assert ReEscape(a + b) == head + ReEscape(a[1..] + b);
      ReEscapeAppend(a[1..], b);
      assert head + (ReEscape(a[1..]) + ReEscape(b)) == (head + ReEscape(a[1..])) + ReEscape(b);
    } else {
      assert a + b == b;
    }
  }

  /** The converse round trip: literal text is the escape of its own unescaping. */
  lemma {:induction false} LiteralTokensInverse(t: string)
    requires LiteralTokens(t)
    ensures ReEscape(Unescape(t)) == t
    decreases |t|
  {
    if t != [] {
      if t[0] == '\\' {
        LiteralTokensInverse(t[2..]);
        var u := Unescape(t[2..]);
        assert ([t[1]] + u)[0] == t[1] && ([t[1]] + u)[1..] == u;
        assert t == [t[0], t[1]] + t[2..];
      } else {
        LiteralTokensInverse(t[1..]);
        var u := Unescape(t[1..]);
        assert ([t[0]] + u)[0] == t[0] && ([t[0]] + u)[1..] == u;
        assert t == [t[0]] + t[1..];
      }
    }
  }

  /** Text without metacharacters is its own escape. */
  lemma {:induction false} ReEscapeNoSpecials(s: string)
    requires forall i :: 0 <= i < |s| ==> !IsReSpecial(s[i])
    ensures ReEscape(s) == s
    decreases |s|
  {
    if s != [] {
      ReEscapeNoSpecials(s[1..]);
      assert s == [s[0]] + s[1..];
    }
  }

  /** Two strings escape to the same text only if they are equal. */
  lemma ReEscapeInjective(s: string, s': string)
    requires ReEscape(s) == ReEscape(s')
    ensures s == s'
  {
    ReEscapeRoundTrip(s);
    ReEscapeRoundTrip(s');
  }
}

=== FILE: numerals.dfy ===
/** Python's `f'{n}'` for a non-negative `int`: its decimal digits. */
module Numerals {

  predicate IsDigit(c: char) {
    '0' <= c <= '9'
  }

  predicate AllDigits(s: string) {
    forall i :: 0 <= i < |s| ==> IsDigit(s[i])
  }

  function DigitChar(d: nat): (c: char)
    requires d < 10
    ensures IsDigit(c) && (c as int) - ('0' as int) == d
  {
    (('0' as int) + d) as char
  }

  /** The shortest decimal rendering of `n`. */
  function Decimal(n: nat): (r: string)
    ensures |r| > 0 && AllDigits(r)
    ensures r[0] == '0' ==> n == 0 && r == "0"
    decreases n
  {
    if n < 10 then [DigitChar(n)] else Decimal(n / 10) + [DigitChar(n % 10)]
  }

  /** The value of a string of decimal digits, as Python's `int()` reads it. */
  function DecimalValue(s: string): nat
    requires AllDigits(s)
    decreases |s|
  {
    if s == [] then 0
    else DecimalValue(s[..|s| - 1]) * 10 + ((s[|s| - 1] as int) - ('0' as int))
  }

  lemma {:induction false} DecimalRoundTrip(n: nat)
    ensures DecimalValue(Decimal(n)) == n
    decreases n
  {
    var r := Decimal(n);
    if n >= 10 {
      DecimalRoundTrip(n / 10);
      assert r[..|r| - 1] == Decimal(n / 10);
    } else {
      assert r[..0] == [];
    }
  }

  /** The length of the plain run of decimal digits `t` starts with. */
  function DigitRun(t: string): (n: nat)
    ensures n <= |t| && AllDigits(t[..n])
    ensures n < |t| ==> !IsDigit(t[n])
    decreases |t|
  {
    if t != [] && IsDigit(t[0]) then
      var n := 1 + DigitRun(t[1..]);
      assert forall i :: 1 <= i < n ==> t[..n][i] == t[1..][..n - 1][i - 1];
      n
    else 0
  }

  /** The run of digits goes through all of `d` and on into what follows. */
  lemma {:induction false} DigitRunAppend(d: string, s: string)
    requires AllDigits(d)
    ensures DigitRun(d + s) == |d| + DigitRun(s)
    decreases |d|
  {
    if d != [] {
      assert (d + s)[1..] == d[1..] + s;
      DigitRunAppend(d[1..], s);
    } else {
      assert d + s == s;
    }
  }
}

=== FILE: pattern.dfy ===
/**
 * The `Pattern` builder of WordyRegex: an immutable value holding regular
 * expression text, and composition operations that each build a new
 * Pattern from the current text and a fragment. A fragment given as a
 * plain string is escaped with `re.escape`; one given as a Pattern is used
 * verbatim; any other kind of value raises `WordyRegexArgError`.
 */
module WordyRegex {
  import opened Wrappers
  import opened Escaping
  import opened Numerals
  import opened Syntax

  /** `WordyRegexArgError`, with the reason for it. */
  datatype ArgError =
    | ExpectedStrOrPattern              // a fragment that is neither `str` nor `Pattern`
    | ExpectedStr                       // the constructor was given a non-`str`
    | MinNotBelowMax(min: nat, max: nat) // `repeat` with `min >= max`

  /** The regex text a Pattern holds. */
  datatype Pattern = Pattern(text: string)

  /** What a caller may pass where a pattern-like value is expected. */
  datatype Arg = Str(s: string) | Pat(p: Pattern) | Other

  /** A string argument, or a Pattern argument whose text is balanced. */
  predicate ArgBalanced(a: Arg) {
    a.Pat? ==> Balanced(a.p.text)
  }

  /**
   * `frag` is the text `a` contributes: for a string, literal text that
   * unescapes to it; for a Pattern, the pattern's text. This reads `frag` on
   * its own: after a back reference `\N` with a one-digit id, Python's
   * parser reads a leading digit of `frag` as part of the reference (a
   * two-digit group number or an octal escape; see `BackrefByIdGrouped`).
   */
  predicate Embeds(a: Arg, frag: string) {
    match a
    case Str(s) => LiteralTokens(frag) && Unescape(frag) == s
    case Pat(p) => frag == p.text
    case Other => false
  }

  /** `?` after a quantifier makes it lazy. */
  function LazyMark(greedy: bool): string {
    if greedy then "" else "?"
  }

  // ---------------------------------------------------------------------
  // Construction and coercion

  /** `_pattern2str`: the text a pattern-like argument contributes. */
  function Coerce(a: Arg): (r: Result<string, ArgError>)
    ensures r.Ok? <==> !a.Other?
    ensures r.Err? ==> r.error == ExpectedStrOrPattern
    ensures r.Ok? ==> Embeds(a, r.value)
    ensures r.Ok? && ArgBalanced(a) ==> Balanced(r.value)
  {
    match a
    case Str(s) =>
      ReEscapeRoundTrip(s);
      ReEscapeLiteral(s);
      RunLiteral(ReEscape(s), 0);
      Ok(ReEscape(s))
    case Pat(p) => Ok(p.text)
    case Other => Err(ExpectedStrOrPattern)
  }

  /** `Pattern(pattern, escape)`: only a `str` is accepted, escaped when `escape` is set. */
  function NewPattern(a: Arg, escape: bool): (r: Result<Pattern, ArgError>)
    ensures r.Ok? <==> a.Str?
    ensures r.Err? ==> r.error == ExpectedStr
    ensures r.Ok? && escape ==> Embeds(a, r.value.text) && Balanced(r.value.text)
    ensures r.Ok? && !escape ==> r.value.text == a.s
  {
    if !a.Str? then Err(ExpectedStr)
    else if escape then
      ReEscapeRoundTrip(a.s);
      ReEscapeLiteral(a.s);
      RunLiteral(ReEscape(a.s), 0);
      Ok(Pattern(ReEscape(a.s)))
    else Ok(Pattern(a.s))
  }

  // ---------------------------------------------------------------------
  // Concatenation and anchors

  /** `p.then(a)`: the current text followed by the coerced argument, nothing between. */
  function Then(p: Pattern, a: Arg): (r: Result<Pattern, ArgError>)
    ensures r.Ok? <==> !a.Other?
    ensures r.Err? ==> r.error == ExpectedStrOrPattern
    ensures r.Ok? ==> r.value.text == p.text + Coerce(a).value
    ensures r.Ok? ==> Embeds(a, r.value.text[|p.text|..])
    ensures r.Ok? && Balanced(p.text) && ArgBalanced(a) ==> Balanced(r.value.text)
  {
    match Coerce(a)
    case Err(e) => Err(e)
    case Ok(c) =>
      BalancedAppend(p.text, c);
      assert (p.text + c)[|p.text|..] == c;
      Ok(Pattern(p.text + c))
  }

  /** `Pattern.lineStart()`: the start-of-line anchor alone. */
  function LineStart(): (r: Pattern)
    ensures r.text == "^" && Balanced(r.text)
  {
    Pattern("^")
  }

  /** `p.lineEnd()`: the current text followed by the end-of-line anchor. */
  function LineEnd(p: Pattern): (r: Pattern)
    ensures |r.text| == |p.text| + 1
    ensures r.text[..|p.text|] == p.text && r.text[|p.text|] == '$'
    ensures Balanced(p.text) ==> Balanced(r.text)
  {
    BalancedAppend(p.text, "$");
    Pattern(p.text + "$")
  }

  /** `Pattern.anyChar()`: the any-character wildcard alone. */
  function AnyChar(): (r: Pattern)
    ensures r.text == "." && Balanced(r.text)
  {
    Pattern(".")
  }

  // ---------------------------------------------------------------------
  // Lookaround

  /** `p.succeededBy(a)`: the current text followed by a positive lookahead on the argument. */
  function SucceededBy(p: Pattern, a: Arg): (r: Result<Pattern, ArgError>)
    ensures r.Ok? <==> !a.Other?
    ensures r.Err? ==> r.error == ExpectedStrOrPattern
    ensures r.Ok? ==> r.value.text == p.text + "(?=" + Coerce(a).value + ")"
    ensures r.Ok? && Balanced(p.text) && ArgBalanced(a) ==> Balanced(r.value.text)
  {
    match Coerce(a)
    case Err(e) => Err(e)
    case Ok(c) =>
      BalancedWrap("(?=", c, ")");
      BalancedAppend(p.text, "(?=" + c + ")");
      assert p.text + "(?=" + c + ")" == p.text + ("(?=" + c + ")");
      Ok(Pattern(p.text + "(?=" + c + ")"))
  }

  /** `p.succeededByNot(a)`: the current text followed by a negative lookahead on the argument. */
  function SucceededByNot(p: Pattern, a: Arg): (r: Result<Pattern, ArgError>)
    ensures r.Ok? <==> !a.Other?
    ensures r.Err? ==> r.error == ExpectedStrOrPattern
    ensures r.Ok? ==> r.value.text == p.text + "(?!" + Coerce(a).value + ")"
    ensures r.Ok? && Balanced(p.text) && ArgBalanced(a) ==> Balanced(r.value.text)
  {
    match Coerce(a)
    case Err(e) => Err(e)
    case Ok(c) =>
      BalancedWrap("(?!", c, ")");
      BalancedAppend(p.text, "(?!" + c + ")");
      assert p.text + "(?!" + c + ")" == p.text + ("(?!" + c + ")");
      Ok(Pattern(p.text + "(?!" + c + ")"))
  }

  /**
   * `Pattern.preceededBy(a)`: a static method, so the result is the positive
   * lookbehind on the argument alone, with no current text before or after it.
   */
  function PreceededBy(a: Arg): (r: Result<Pattern, ArgError>)
    ensures r.Ok? <==> !a.Other?
    ensures r.Err? ==> r.error == ExpectedStrOrPattern
    ensures r.Ok? ==> r.value.text == "(?<=" + Coerce(a).value + ")"
    ensures r.Ok? && ArgBalanced(a) ==> Balanced(r.value.text)
  {
    match Coerce(a)
    case Err(e) => Err(e)
    case Ok(c) =>
      BalancedWrap("(?<=", c, ")");
      Ok(Pattern("(?<=" + c + ")"))
  }

  /** `Pattern.preceededByNot(a)`: the negative lookbehind on the argument alone. */
  function PreceededByNot(a: Arg): (r: Result<Pattern, ArgError>)
    ensures r.Ok? <==> !a.Other?
    ensures r.Err? ==> r.error == ExpectedStrOrPattern
    ensures r.Ok? ==> r.value.text == "(?<!" + Coerce(a).value + ")"
    ensures r.Ok? && ArgBalanced(a) ==> Balanced(r.value.text)
  {
    match Coerce(a)
    case Err(e) => Err(e)
    case Ok(c) =>
      BalancedWrap("(?<!", c, ")");
      Ok(Pattern("(?<!" + c + ")"))
  }

  /**
   * The lookbehind as `preceededBy`'s description and the repository's test
   * intend it: an instance method that puts the assertion in front of the
   * current text. `PreceededBy` above is what the code does instead.
   */
  function PreceededByOn(p: Pattern, a: Arg): (r: Result<Pattern, ArgError>)
    ensures r.Ok? <==> !a.Other?
    ensures r.Err? ==> r.error == ExpectedStrOrPattern
    ensures r.Ok? ==> r.value.text == "(?<=" + Coerce(a).value + ")" + p.text
    ensures r.Ok? && Balanced(p.text) && ArgBalanced(a) ==> Balanced(r.value.text)
  {
    match Coerce(a)
    case Err(e) => Err(e)
    case Ok(c) =>
      BalancedWrap("(?<=", c, ")");
      BalancedAppend("(?<=" + c + ")", p.text);
      Ok(Pattern("(?<=" + c + ")" + p.text))
  }

  /** The negative lookbehind in front of the current text, as intended. */
  function PreceededByNotOn(p: Pattern, a: Arg): (r: Result<Pattern, ArgError>)
    ensures r.Ok? <==> !a.Other?
    ensures r.Err? ==> r.error == ExpectedStrOrPattern
    ensures r.Ok? ==> r.value.text == "(?<!" + Coerce(a).value + ")" + p.text
    ensures r.Ok? && Balanced(p.text) && ArgBalanced(a) ==> Balanced(r.value.text)
  {
    match Coerce(a)
    case Err(e) => Err(e)
    case Ok(c) =>
      BalancedWrap("(?<!", c, ")");
      BalancedAppend("(?<!" + c + ")", p.text);
      Ok(Pattern("(?<!" + c + ")" + p.text))
  }

  // ---------------------------------------------------------------------
  // Groups and references

  /** A group name is used only when it is truthy: present and non-empty. */
  predicate Named(name: Option<string>) {
    name.Some? && name.value != ""
  }

  /**
   * `p.group(name, catch)`: a non-capturing group when `catch` is false
   * (whatever the name), a named group when a truthy name is given, and a
   * plain capturing group otherwise.
   */
  function Group(p: Pattern, name: Option<string>, catch: bool): (r: Pattern)
    ensures !catch ==> r.text == "(?:" + p.text + ")"
    ensures catch && Named(name) ==> r.text == "(?P<" + name.value + ">" + p.text + ")"
    ensures catch && !Named(name) ==> r.text == "(" + p.text + ")"
    ensures Balanced(p.text) && (catch && Named(name) ==> Plain(name.value)) ==> Balanced(r.text)
  {
    if !catch then
      BalancedWrap("(?:", p.text, ")");
      Pattern("(?:" + p.text + ")")
    else if Named(name) then
      var open := "(?P<" + name.value + ">";
      PlainBetween("(?P<", name.value, ">", 1, 1);
      BalancedWrap(open, p.text, ")");
      Pattern(open + p.text + ")")
    else
      BalancedWrap("(", p.text, ")");
      Pattern("(" + p.text + ")")
  }

  /** `Pattern.backrefByName(name)`: a reference to the named group. */
  function BackrefByName(name: string): (r: Pattern)
    ensures r.text == "(?P=" + name + ")"
    ensures Plain(name) ==> Balanced(r.text)
  {
    PlainBetween("(?P=", name, ")", 1, 0);
    Pattern("(?P=" + name + ")")
  }

  /** `Pattern.backrefById(bid)`: a backslash followed by the group number in decimal. */
  function BackrefById(bid: nat): (r: Pattern)
    ensures |r.text| >= 2 && r.text[0] == '\\'
    ensures AllDigits(r.text[1..]) && DecimalValue(r.text[1..]) == bid
    ensures r.text[1] == '0' ==> r.text == "\\0"
    ensures Balanced(r.text)
  {
    var digits := Decimal(bid);
    DecimalRoundTrip(bid);
    RunPlain(digits[1..], 0);
    assert ("\\" + digits)[2..] == digits[1..];
    assert ("\\" + digits)[1..] == digits;
    Pattern("\\" + digits)
  }

  /**
   * The back reference closed off in a non-capturing group, `(?:\N)`, so
   * that the run of digits after the backslash ends with the id's digits
   * whatever text is added after it.
   */
  function BackrefByIdGrouped(bid: nat): (r: Pattern)
    ensures |r.text| >= 6 && r.text[..4] == "(?:\\" && r.text[|r.text| - 1] == ')'
    ensures DigitRun(r.text[4..]) == |r.text| - 5
    ensures AllDigits(r.text[4..|r.text| - 1]) && DecimalValue(r.text[4..|r.text| - 1]) == bid
    ensures r.text[4] == '0' ==> r.text == "(?:\\0)"
    ensures Balanced(r.text)
  {
    var g := BackrefById(bid).text;
    GroupedDigits(g);
    Pattern("(?:" + g + ")")
  }

  /** The layout of `(?:\N)` around the digits of a back reference `\N`. */
  lemma GroupedDigits(g: string)
    requires |g| >= 2 && g[0] == '\\' && AllDigits(g[1..]) && Balanced(g)
    ensures var t := "(?:" + g + ")";
            t[..4] == "(?:\\" && t[4..] == g[1..] + ")" && t[4..|t| - 1] == g[1..]
            && DigitRun(t[4..]) == |t| - 5 && Balanced(t)
            && (g == "\\0" ==> t == "(?:\\0)")
  {
    BalancedWrap("(?:", g, ")");
    var t := "(?:" + g + ")";
    assert t[..4] == "(?:\\";
    assert t[4..] == g[1..] + ")";
    DigitRunAppend(g[1..], ")");
  }

  /**
   * `Pattern.condGroupMatch(name, a, b)`: match `a` if the named group took
   * part in the match, `b` otherwise; the caller's `b` defaults to `Str("")`.
   */
  function CondGroupMatch(name: string, a: Arg, b: Arg): (r: Result<Pattern, ArgError>)
    ensures r.Ok? <==> !a.Other? && !b.Other?
    ensures r.Err? ==> r.error == ExpectedStrOrPattern
    ensures r.Ok? ==> r.value.text == "(?(" + name + ")" + Coerce(a).value + "|" + Coerce(b).value + ")"
    ensures r.Ok? && Plain(name) && ArgBalanced(a) && ArgBalanced(b) ==> Balanced(r.value.text)
  {
    match Coerce(a)
    case Err(e) => Err(e)
    case Ok(c1) =>
      match Coerce(b)
      case Err(e) => Err(e)
      case Ok(c2) =>
        var open := "(?(" + name + ")";
        var body := c1 + "|" + c2;
        PlainBetween("(?(", name, ")", 2, 1);
        BalancedAppend(c1, "|");
        BalancedAppend(c1 + "|", c2);
        BalancedWrap(open, body, ")");
        assert open + body + ")" == "(?(" + name + ")" + c1 + "|" + c2 + ")";
        Ok(Pattern(open + body + ")"))
  }

  // ---------------------------------------------------------------------
  // Quantifiers

  /** Appends quantifier `q` and, when not greedy, the lazy mark. */
  function Quantified(p: Pattern, q: char, greedy: bool): (r: Pattern)
    requires q in "*+?"
    ensures |r.text| == |p.text| + (if greedy then 1 else 2)
    ensures r.text[..|p.text|] == p.text && r.text[|p.text|] == q
    ensures !greedy ==> r.text[|p.text| + 1] == '?'
    ensures Balanced(p.text) ==> Balanced(r.text)
  {
    var suffix := [q] + LazyMark(greedy);
    RunPlain(suffix, 0);
    BalancedAppend(p.text, suffix);
    Pattern(p.text + suffix)
  }

  /** `p.zeroOrMore(greedy)`. */
  function ZeroOrMore(p: Pattern, greedy: bool): (r: Pattern)
    ensures r == Quantified(p, '*', greedy)
  {
    Pattern(p.text + "*" + LazyMark(greedy))
  }

  /** `p.oneOrMore(greedy)`. */
  function OneOrMore(p: Pattern, greedy: bool): (r: Pattern)
    ensures r == Quantified(p, '+', greedy)
  {
    Pattern(p.text + "+" + LazyMark(greedy))
  }

  /** `p.zeroOrOne(greedy)`. */
  function ZeroOrOne(p: Pattern, greedy: bool): (r: Pattern)
    ensures r == Quantified(p, '?', greedy)
  {
    Pattern(p.text + "?" + LazyMark(greedy))
  }

  /** `p.optional(greedy)`, an alias. */
  function Optional(p: Pattern, greedy: bool): (r: Pattern)
    ensures r == ZeroOrOne(p, greedy)
    ensures |r.text| == |p.text| + (if greedy then 1 else 2)
  {
    ZeroOrOne(p, greedy)
  }

  /** An `exact` count is used only when it is truthy, i.e. present and not 0. */
  predicate Truthy(exact: Option<nat>) {
    exact.Some? && exact.value != 0
  }

  /** A bound as it appears between the braces: empty when it is not given. */
  function Bound(b: Option<nat>): string {
    if b.Some? then Decimal(b.value) else ""
  }

  /** The text `repeat` appends to the current pattern once the range check has passed. */
  function RepeatSuffix(exact: Option<nat>, min: Option<nat>, max: Option<nat>, greedy: bool): string {
    if Truthy(exact) then "{" + Decimal(exact.value) + "}"
    else "{" + Bound(min) + "," + Bound(max) + "}" + LazyMark(greedy)
  }

  lemma RepeatSuffixPlain(exact: Option<nat>, min: Option<nat>, max: Option<nat>, greedy: bool)
    ensures Plain(RepeatSuffix(exact, min, max, greedy))
  {
    if Truthy(exact) {
      PlainAppend("{", Decimal(exact.value));
      PlainAppend("{" + Decimal(exact.value), "}");
    } else {
      var lo, hi := Bound(min), Bound(max);
      PlainAppend("{", lo);
      PlainAppend("{" + lo, ",");
      PlainAppend("{" + lo + ",", hi);
      PlainAppend("{" + lo + "," + hi, "}");
      PlainAppend("{" + lo + "," + hi + "}", LazyMark(greedy));
    }
  }

  /**
   * `p.repeat(exact, min, max, greedy)`. The range check comes first and
   * rejects `min >= max` even when `exact` is given; a truthy `exact` then
   * wins over the bounds and takes no lazy mark.
   */
  function Repeat(p: Pattern, exact: Option<nat>, min: Option<nat>, max: Option<nat>, greedy: bool)
    : (r: Result<Pattern, ArgError>)
    ensures r.Err? <==> min.Some? && max.Some? && min.value >= max.value
    ensures r.Err? ==> r.error == MinNotBelowMax(min.value, max.value)
    ensures r.Ok? && Truthy(exact) ==> r.value.text == p.text + ("{" + Decimal(exact.value) + "}")
    ensures r.Ok? && !Truthy(exact) ==>
              r.value.text == p.text + ("{" + Bound(min) + "," + Bound(max) + "}" + LazyMark(greedy))
    ensures r.Ok? && Balanced(p.text) ==> Balanced(r.value.text)
  {
    if min.Some? && max.Some? && min.value >= max.value then
      Err(MinNotBelowMax(min.value, max.value))
    else
      var suffix := RepeatSuffix(exact, min, max, greedy);
      RepeatSuffixPlain(exact, min, max, greedy);
      RunPlain(suffix, 0);
      BalancedAppend(p.text, suffix);
      Ok(Pattern(p.text + suffix))
  }

  // ---------------------------------------------------------------------
  // Alternation and sequencing

  /** `[_pattern2str(it) for it in args]`: fails at the first argument that is not coercible. */
  function CoerceAll(args: seq<Arg>): (r: Result<seq<string>, ArgError>)
    ensures r.Ok? <==> forall i :: 0 <= i < |args| ==> !args[i].Other?
    ensures r.Err? ==> r.error == ExpectedStrOrPattern
    ensures r.Ok? ==> |r.value| == |args|
    ensures r.Ok? ==> forall i :: 0 <= i < |args| ==> r.value[i] == Coerce(args[i]).value
    decreases |args|
  {
    if args == [] then Ok([])
    else
      match Coerce(args[0])
      case Err(e) => Err(e)
      case Ok(c) =>
        match CoerceAll(args[1..])
        case Err(e) => Err(e)
        case Ok(cs) =>
          assert forall i :: 1 <= i < |args| ==> args[i] == args[1..][i - 1];
          Ok([c] + cs)
  }

  /** The combined length of the parts. */
  function TotalLength(parts: seq<string>): nat
    decreases |parts|
  {
    if parts == [] then 0 else |parts[0]| + TotalLength(parts[1..])
  }

  /** `sep.join(parts)`: the parts in order with one separator between neighbours. */
  function Join(sep: string, parts: seq<string>): (r: string)
    ensures |parts| == 0 ==> r == ""
    ensures |parts| > 0 ==> |r| == TotalLength(parts) + (|parts| - 1) * |sep|
    ensures |parts| > 0 ==> r[..|parts[0]|] == parts[0]
    decreases |parts|
  {
    if |parts| == 0 then ""
    else if |parts| == 1 then
      assert parts[1..] == [];
      parts[0]
    else
      assert (parts[0] + sep + Join(sep, parts[1..]))[..|parts[0]|] == parts[0];
      parts[0] + sep + Join(sep, parts[1..])
  }

  /** `''.join(parts)`: the parts in order with nothing between. */
  function Concat(parts: seq<string>): (r: string)
    ensures |r| == TotalLength(parts)
    ensures |parts| > 0 ==> r[..|parts[0]|] == parts[0]
    decreases |parts|
  {
    if parts == [] then ""
    else
      assert (parts[0] + Concat(parts[1..]))[..|parts[0]|] == parts[0];
      parts[0] + Concat(parts[1..])
  }

  /** Joining balanced parts with a plain separator gives balanced text. */
  lemma {:induction false} JoinBalanced(sep: string, parts: seq<string>)
    requires Plain(sep)
    requires forall i :: 0 <= i < |parts| ==> Balanced(parts[i])
    ensures Balanced(Join(sep, parts))
    decreases |parts|
  {
    if |parts| > 1 {
      JoinBalanced(sep, parts[1..]);
      RunPlain(sep, 0);
      BalancedAppend(parts[0], sep);
      BalancedAppend(parts[0] + sep, Join(sep, parts[1..]));
    }
  }

  lemma {:induction false} ConcatBalanced(parts: seq<string>)
    requires forall i :: 0 <= i < |parts| ==> Balanced(parts[i])
    ensures Balanced(Concat(parts))
    decreases |parts|
  {
    if parts != [] {
      ConcatBalanced(parts[1..]);
      BalancedAppend(parts[0], Concat(parts[1..]));
    }
  }

  /** All arguments are strings or balanced Patterns. */
  predicate AllBalanced(args: seq<Arg>) {
    forall i :: 0 <= i < |args| ==> ArgBalanced(args[i])
  }

  /** Coercing strings and balanced Patterns, then joining or concatenating, gives balanced text. */
  lemma CoercedBalanced(args: seq<Arg>)
    requires CoerceAll(args).Ok?
    ensures AllBalanced(args) ==> Balanced(Join("|", CoerceAll(args).value))
    ensures AllBalanced(args) ==> Balanced(Concat(CoerceAll(args).value))
  {
    if AllBalanced(args) {
      var parts := CoerceAll(args).value;
      forall i | 0 <= i < |args| ensures Balanced(parts[i]) {
        assert ArgBalanced(args[i]);
      }
      RunPlain("|", 0);
      JoinBalanced("|", parts);
      ConcatBalanced(parts);
    }
  }

  /**
   * `Pattern.anyOf(*args, group)`: the coerced arguments joined by `|`,
   * wrapped in a capturing group when `group` is set.
   */
  function AnyOf(args: seq<Arg>, group: bool): (r: Result<Pattern, ArgError>)
    ensures r.Ok? <==> forall i :: 0 <= i < |args| ==> !args[i].Other?
    ensures r.Err? ==> r.error == ExpectedStrOrPattern
    ensures r.Ok? && group ==> r.value.text == "(" + Join("|", CoerceAll(args).value) + ")"
    ensures r.Ok? && !group ==> r.value.text == Join("|", CoerceAll(args).value)
    ensures r.Ok? && AllBalanced(args) ==> Balanced(r.value.text)
  {
    match CoerceAll(args)
    case Err(e) => Err(e)
    case Ok(parts) =>
      var joined := Join("|", parts);
      CoercedBalanced(args);
      BalancedWrap("(", joined, ")");
      Ok(Pattern(if group then "(" + joined + ")" else joined))
  }

  /** `Pattern.seq(*args)`: the coerced arguments concatenated with nothing between. */
  function Seq(args: seq<Arg>): (r: Result<Pattern, ArgError>)
    ensures r.Ok? <==> forall i :: 0 <= i < |args| ==> !args[i].Other?
    ensures r.Err? ==> r.error == ExpectedStrOrPattern
    ensures r.Ok? ==> r.value.text == Concat(CoerceAll(args).value)
    ensures r.Ok? && AllBalanced(args) ==> Balanced(r.value.text)
  {
    match CoerceAll(args)
    case Err(e) => Err(e)
    case Ok(parts) =>
      CoercedBalanced(args);
      Ok(Pattern(Concat(parts)))
  }
}

=== FILE: pattern_laws.dfy ===
/**
 * Laws relating several Pattern operations: sequencing is repeated `then`,
 * `then` on literals is the literal of the concatenation, and `anyOf` on
 * literals can be split back into its alternatives.
 */
module PatternLaws {
  import opened Wrappers
  import opened Escaping
  import opened Numerals
  import opened WordyRegex

  /** `p.then(args[0]).then(args[1])...`, stopping at the first error. */
  function ThenAll(p: Pattern, args: seq<Arg>): Result<Pattern, ArgError>
    decreases |args|
  {
    if args == [] then Ok(p)
    else
      match Then(p, args[0])
      case Err(e) => Err(e)
      case Ok(q) => ThenAll(q, args[1..])
  }

  /** Chaining `then` appends the concatenation of the coerced arguments. */
  lemma {:induction false} ThenAllConcat(p: Pattern, args: seq<Arg>)
    ensures CoerceAll(args).Err? ==> ThenAll(p, args) == Err(ExpectedStrOrPattern)
    ensures CoerceAll(args).Ok? ==> ThenAll(p, args) == Ok(Pattern(p.text + Concat(CoerceAll(args).value)))
    decreases |args|
  {
    if args == [] {
      assert p.text + Concat([]) == p.text;
    } else if !args[0].Other? {
      var c := Coerce(args[0]).value;
      var q := Pattern(p.text + c);
      ThenAllConcat(q, args[1..]);
      if CoerceAll(args).Ok? {
        var cs := CoerceAll(args[1..]).value;
        assert CoerceAll(args).value == [c] + cs;
        assert Concat([c] + cs) == c + Concat(cs) by {
          assert ([c] + cs)[1..] == cs;
        }
        assert p.text + c + Concat(cs) == p.text + (c + Concat(cs));
      }
    }
  }

  /** `Pattern.seq(*args)` equals starting from the empty pattern and applying `then` to each argument. */
  lemma SeqIsRepeatedThen(args: seq<Arg>)
    ensures Seq(args) == ThenAll(Pattern(""), args)
  {
    ThenAllConcat(Pattern(""), args);
    if CoerceAll(args).Ok? {
      assert "" + Concat(CoerceAll(args).value) == Concat(CoerceAll(args).value);
    }
  }

  /** `p.then(q.then(a))` and `p.then(q).then(a)` give the same text. */
  lemma ThenAssociative(p: Pattern, q: Pattern, a: Arg)
    requires !a.Other?
    ensures Then(p, Pat(Then(q, a).value)) == Then(Then(p, Pat(q)).value, a)
  {
    assert p.text + (q.text + Coerce(a).value) == p.text + q.text + Coerce(a).value;
  }

  /** Appending a literal to an escaped literal gives the escaped concatenation. */
  lemma ThenLiterals(s: string, t: string)
    ensures Then(NewPattern(Str(s), true).value, Str(t)) == NewPattern(Str(s + t), true)
  {
    ReEscapeAppend(s, t);
  }

  /**
   * Whatever `then` appends after `backrefByIdGrouped(bid)`, the run of
   * digits after `(?:\` is exactly the id's digits and reads as the id.
   */
  lemma BackrefGroupedThen(bid: nat, a: Arg)
    requires !a.Other?
    ensures var t := Then(BackrefByIdGrouped(bid), a).value.text;
            |t| >= 4 && t[..4] == "(?:\\" && DecimalValue(t[4..][..DigitRun(t[4..])]) == bid
  {
    var g := BackrefByIdGrouped(bid).text;
    DigitsStopAtClose(g, Coerce(a).value);
  }

  /** In `(?:\N)` followed by anything, the digit run after `(?:\` is exactly `N`. */
  lemma DigitsStopAtClose(g: string, c: string)
    requires |g| >= 6 && g[..4] == "(?:\\" && g[|g| - 1] == ')' && AllDigits(g[4..|g| - 1])
    ensures var t := g + c;
            t[..4] == "(?:\\" && t[4..][..DigitRun(t[4..])] == g[4..|g| - 1]
  {
    var t := g + c;
    var digits := g[4..|g| - 1];
    assert t[..4] == g[..4];
    assert t[4..] == digits + (")" + c);
    DigitRunAppend(digits, ")" + c);
  }

  /**
   * The intended lookbehinds are the code's static ones followed by the
   * current pattern: `preceededBy(a).then(p)`.
   */
  lemma PreceededByOnIsThen(p: Pattern, a: Arg)
    requires !a.Other?
    ensures PreceededByOn(p, a) == Then(PreceededBy(a).value, Pat(p))
    ensures PreceededByNotOn(p, a) == Then(PreceededByNot(a).value, Pat(p))
  {
  }

  /** Splits text at every `|` that is not escaped, keeping escapes intact. */
  function SplitBars(t: string): (r: seq<string>)
    ensures |r| >= 1
    decreases |t|
  {
    if t == [] then [""]
    else if t[0] == '\\' && |t| >= 2 then
      var rest := SplitBars(t[2..]);
      [t[..2] + rest[0]] + rest[1..]
    else if t[0] == '|' then [""] + SplitBars(t[1..])
    else
      var rest := SplitBars(t[1..]);
      [[t[0]] + rest[0]] + rest[1..]
  }

  /** Literal text contains no unescaped `|`, so it stays in the first alternative. */
  lemma {:induction false} SplitBarsLiteralPrefix(a: string, t: string)
    requires LiteralTokens(a)
    ensures SplitBars(a + t) == [a + SplitBars(t)[0]] + SplitBars(t)[1..]
    decreases |a|
  {
    if a == [] {
      var r := SplitBars(t);
      assert a + t == t && a + r[0] == r[0];
      assert r == [r[0]] + r[1..];
    } else {
      var k := LiteralHead(a);
      SplitBarsLiteralPrefix(a[k..], t);
      SplitBarsPrefixStep(a[..k], a[k..], t);
      assert a[..k] + a[k..] == a;
    }
  }

  /** One more token in front of a prefix that stays in the first alternative. */
  lemma SplitBarsPrefixStep(h: string, rest: string, t: string)
    requires (|h| == 2 && h[0] == '\\') || (|h| == 1 && h[0] != '\\' && h[0] != '|')
    requires SplitBars(rest + t) == [rest + SplitBars(t)[0]] + SplitBars(t)[1..]
    ensures SplitBars(h + rest + t) == [h + rest + SplitBars(t)[0]] + SplitBars(t)[1..]
  {
    var r0, r1 := SplitBars(t)[0], SplitBars(t)[1..];
    var y := rest + t;
    assert h + rest + t == h + y;
    SplitBarsToken(h, y);
    var u := rest + r0;
    assert SplitBars(y)[0] == u && SplitBars(y)[1..] == r1;
    assert h + u == h + rest + r0;
  }

  /** The length of the first token of literal text, and the literal text after it. */
  lemma LiteralHead(a: string) returns (k: nat)
    requires LiteralTokens(a) && a != []
    ensures k <= |a| && LiteralTokens(a[k..])
    ensures (k == 2 && a[0] == '\\') || (k == 1 && a[0] != '\\' && a[0] != '|')
  {
    k := if a[0] == '\\' then 2 else 1;
  }

  /** One escape pair, or one character that is neither `\` nor `|`, joins the first alternative. */
  lemma SplitBarsToken(h: string, y: string)
    requires (|h| == 2 && h[0] == '\\') || (|h| == 1 && h[0] != '\\' && h[0] != '|')
    ensures SplitBars(h + y) == [h + SplitBars(y)[0]] + SplitBars(y)[1..]
  {
    var x := h + y;
    var rest := SplitBars(x[|h|..]);
    if |h| == 2 {
      assert x[0] == '\\' && x[..2] == h && x[2..] == y;
      assert SplitBars(x) == [x[..2] + rest[0]] + rest[1..];
    } else {
      assert x[0] == h[0] && x[1..] == y && [x[0]] == h;
      assert SplitBars(x) == [[x[0]] + rest[0]] + rest[1..];
    }
  }

  /** Splitting a `|`-join of literal texts gives the texts back. */
  lemma {:induction false} SplitJoin(parts: seq<string>)
    requires |parts| >= 1
    requires forall i :: 0 <= i < |parts| ==> LiteralTokens(parts[i])
    ensures SplitBars(Join("|", parts)) == parts
    decreases |parts|
  {
    if |parts| == 1 {
      SplitBarsLiteralPrefix(parts[0], "");
      assert parts[0] + "" == parts[0];
    } else {
      var rest := Join("|", parts[1..]);
      SplitJoin(parts[1..]);
      SplitBarsLiteralPrefix(parts[0], "|" + rest);
      assert ("|" + rest)[1..] == rest;
      assert SplitBars("|" + rest) == [""] + parts[1..];
      assert parts[0] + "|" + rest == parts[0] + ("|" + rest);
      assert ([""] + parts[1..])[0] == "" && ([""] + parts[1..])[1..] == parts[1..];
      assert parts[0] + "" == parts[0];
      assert [parts[0]] + parts[1..] == parts;
    }
  }

  /** The arguments of a call made with plain strings. */
  function Literals(strs: seq<string>): (args: seq<Arg>)
    ensures |args| == |strs|
    ensures forall i :: 0 <= i < |strs| ==> args[i] == Str(strs[i])
  {
    seq(|strs|, i requires 0 <= i < |strs| => Str(strs[i]))
  }

  /**
   * `Pattern.anyOf` on plain strings: the alternatives, read back by
   * splitting at the unescaped bars and unescaping, are the strings given.
   */
  lemma AnyOfLiterals(strs: seq<string>, group: bool)
    requires |strs| >= 1
    ensures AnyOf(Literals(strs), group).Ok?
    ensures var t := AnyOf(Literals(strs), group).value.text;
            var body := if group then t[1..|t| - 1] else t;
            var alts := SplitBars(body);
            |alts| == |strs| && forall i :: 0 <= i < |strs| ==> Unescape(alts[i]) == strs[i]
  {
    var args := Literals(strs);
    var parts := CoerceAll(args).value;
    forall i | 0 <= i < |parts| ensures LiteralTokens(parts[i]) && Unescape(parts[i]) == strs[i] {
      assert Embeds(args[i], Coerce(args[i]).value);
    }
    SplitJoin(parts);
    var t := AnyOf(args, group).value.text;
    if group {
      assert t[1..|t| - 1] == Join("|", parts);
    }
  }
}

=== FILE: scenarios.dfy ===
/**
 * The compositions the repository's unit tests exercise, stated for any
 * words of lower-case letters (the tests use `hello` and `world`), and the
 * exact text each one produces.
 */
module Scenarios {
  import opened Wrappers
  import opened Escaping
  import opened Numerals
  import opened WordyRegex
  import opened CharSet

  /** A run of lower-case letters: nothing in it is escaped. */
  predicate Word(s: string) {
    forall i :: 0 <= i < |s| ==> 'a' <= s[i] <= 'z'
  }

  /** The escaped text of a word, and of a word with a space before or after it. */
  lemma WordEscapes(s: string)
    requires Word(s)
    ensures ReEscape(s) == s
    ensures ReEscape(" " + s) == "\\ " + s && ReEscape(s + " ") == s + "\\ "
  {
    ReEscapeNoSpecials(s);
    ReEscapeAppend(" ", s);
    ReEscapeAppend(s, " ");
    assert ReEscape(" ") == "\\ ";
  }

  /** `Pattern(w)` is the word itself and so is `then(w)`'s addition. */
  lemma WordArg(s: string)
    requires Word(s)
    ensures NewPattern(Str(s), true) == Ok(Pattern(s))
    ensures Coerce(Str(s)) == Ok(s)
  {
    WordEscapes(s);
  }

  /** A space in front of a word is the one character escaped. */
  lemma SpaceWordArg(w: string)
    requires Word(w)
    ensures Coerce(Str(" " + w)) == Ok("\\ " + w)
  {
    WordEscapes(w);
  }

  /**
   * `Pattern('hello').then(' world').then('!')` is `hello\\ world!`: the space
   * is escaped, and a tail with no special character, like `!`, is not.
   */
  lemma ThenScenario(h: string, w: string, t: string)
    requires Word(h) && Word(w)
    requires forall i :: 0 <= i < |t| ==> !IsReSpecial(t[i])
    ensures Then(Then(NewPattern(Str(h), true).value, Str(" " + w)).value, Str(t)).value.text
            == h + "\\ " + w + t
  {
    WordArg(h);
    WordEscapes(w);
    assert Then(Pattern(h), Str(" " + w)) == Ok(Pattern(h + ("\\ " + w)));
    assert h + ("\\ " + w) == h + "\\ " + w;
    ReEscapeNoSpecials(t);
    assert Then(Pattern(h + "\\ " + w), Str(t)) == Ok(Pattern(h + "\\ " + w + t));
  }

  /** `Pattern('hello').lineEnd()` and `lineStart().then('hello').lineEnd()`. */
  lemma LineAnchorsScenario(h: string)
    requires Word(h)
    ensures WordyRegex.LineEnd(NewPattern(Str(h), true).value).text == h + "$"
    ensures WordyRegex.LineEnd(Then(WordyRegex.LineStart(), Str(h)).value).text == "^" + h + "$"
  {
    WordArg(h);
  }

  /** Lookahead after the current text: `hello(?=\\ world)`. */
  lemma LookaheadScenario(h: string, w: string)
    requires Word(h) && Word(w)
    ensures SucceededBy(NewPattern(Str(h), true).value, Str(" " + w)).value.text == h + "(?=" + ("\\ " + w) + ")"
  {
    WordArg(h);
    SpaceWordArg(w);
  }

  /** Negative lookahead after the current text: `hello(?!\\ world)`. */
  lemma NegativeLookaheadScenario(h: string, w: string)
    requires Word(h) && Word(w)
    ensures SucceededByNot(NewPattern(Str(h), true).value, Str(" " + w)).value.text == h + "(?!" + ("\\ " + w) + ")"
  {
    WordArg(h);
    SpaceWordArg(w);
  }

  /** `preceededBy('hello ')` is the lookbehind `(?<=hello\\ )` alone. */
  lemma LookbehindScenario(h: string)
    requires Word(h)
    ensures PreceededBy(Str(h + " ")).value.text == "(?<=" + (h + "\\ ") + ")"
  {
    WordEscapes(h);
  }

  /** `preceededByNot('hello ')` is the negative lookbehind `(?<!hello\\ )` alone. */
  lemma NegativeLookbehindScenario(h: string)
    requires Word(h)
    ensures PreceededByNot(Str(h + " ")).value.text == "(?<!" + (h + "\\ ") + ")"
  {
    WordEscapes(h);
  }

  /**
   * `preceededBy` ignores the pattern it is called on, so putting the
   * lookbehind before `world` takes an explicit `then`.
   */
  lemma LookbehindThenScenario(h: string, w: string)
    requires Word(h) && Word(w)
    ensures Then(PreceededBy(Str(h + " ")).value, Str(w)).value.text == "(?<=" + (h + "\\ ") + ")" + w
  {
    LookbehindScenario(h);
    WordEscapes(w);
    assert Then(PreceededBy(Str(h + " ")).value, Str(w)) == Ok(Pattern(PreceededBy(Str(h + " ")).value.text + w));
  }

  /**
   * The repository's test expects `Pattern('world').preceededBy('hello ')`
   * to be `(?<=hello\\ )world`; the code as written gives the lookbehind
   * without `world`, while the intended instance form gives the expected text.
   */
  lemma LookbehindTestMismatch(h: string, w: string)
    requires Word(h) && Word(w) && w != ""
    ensures PreceededBy(Str(h + " ")).value.text != "(?<=" + (h + "\\ ") + ")" + w
    ensures PreceededByNot(Str(h + " ")).value.text != "(?<!" + (h + "\\ ") + ")" + w
    ensures PreceededByOn(Pattern(w), Str(h + " ")).value.text == "(?<=" + (h + "\\ ") + ")" + w
    ensures PreceededByNotOn(Pattern(w), Str(h + " ")).value.text == "(?<!" + (h + "\\ ") + ")" + w
  {
    LookbehindScenario(h);
    NegativeLookbehindScenario(h);
    var e := "(?<=" + (h + "\\ ") + ")";
    assert |e + w| > |e|;
    var f := "(?<!" + (h + "\\ ") + ")";
    assert |f + w| > |f|;
  }

  /** Each quantifier, greedy and lazy, followed by `then(w)`. */
  lemma QuantifierScenario(h: string, w: string, greedy: bool)
    requires Word(h) && Word(w)
    ensures Then(ZeroOrMore(NewPattern(Str(h), true).value, greedy), Str(w)).value.text == h + "*" + LazyMark(greedy) + w
    ensures Then(OneOrMore(NewPattern(Str(h), true).value, greedy), Str(w)).value.text == h + "+" + LazyMark(greedy) + w
    ensures Then(ZeroOrOne(NewPattern(Str(h), true).value, greedy), Str(w)).value.text == h + "?" + LazyMark(greedy) + w
  {
    WordArg(h);
    WordEscapes(w);
    assert Then(ZeroOrMore(Pattern(h), greedy), Str(w)) == Ok(Pattern(ZeroOrMore(Pattern(h), greedy).text + w));
    assert Then(OneOrMore(Pattern(h), greedy), Str(w)) == Ok(Pattern(OneOrMore(Pattern(h), greedy).text + w));
    assert Then(ZeroOrOne(Pattern(h), greedy), Str(w)) == Ok(Pattern(ZeroOrOne(Pattern(h), greedy).text + w));
  }

  /** Groups and the back references to them. */
  lemma GroupScenario(h: string, n: string)
    requires Word(h) && Word(n) && n != ""
    ensures Group(NewPattern(Str(h), true).value, None, false).text == "(?:" + h + ")"
    ensures Group(NewPattern(Str(h), true).value, None, true).text == "(" + h + ")"
    ensures Group(NewPattern(Str(h), true).value, Some(n), true).text == "(?P<" + n + ">" + h + ")"
    ensures Group(NewPattern(Str(h), true).value, Some(n), false).text == "(?:" + h + ")"
    ensures BackrefByName(n).text == "(?P=" + n + ")"
  {
    WordArg(h);
  }

  /** `backrefById(2)` is `\2`. */
  lemma BackrefScenario()
    ensures BackrefById(2).text == "\\2"
  {
    assert Numerals.Decimal(2) == "2";
  }

  /**
   * Text starting with a digit, added after `backrefById(n)`, continues the
   * run of digits after the backslash past the id's digits. For a one-digit
   * id, Python's parser reads the first two digits of that run as a
   * two-digit group number or as the start of an octal escape, never as
   * group `n` followed by a literal.
   */
  lemma BackrefDigitCapture(n: nat, s: string)
    requires |s| > 0 && IsDigit(s[0])
    ensures var t := Then(BackrefById(n), Str(s)).value.text;
            |t| >= 1 && DigitRun(t[1..]) > |Decimal(n)|
  {
    var g := BackrefById(n).text;
    var e := ReEscape(s);
    assert e[0] == s[0];
    DigitsRunOn(g, e);
  }

  /** After a backslash and digits, a leading digit of what follows extends the run. */
  lemma DigitsRunOn(g: string, e: string)
    requires |g| >= 1 && AllDigits(g[1..]) && |e| > 0 && IsDigit(e[0])
    ensures var t := g + e; DigitRun(t[1..]) > |g| - 1
  {
    var t := g + e;
    assert t[1..] == g[1..] + e;
    DigitRunAppend(g[1..], e);
  }

  /** `backrefById(1).then('0')` is the text of `backrefById(10)`, a reference to group 10. */
  lemma BackrefTenScenario()
    ensures Then(BackrefById(1), Str("0")) == Ok(BackrefById(10))
  {
    assert Decimal(1) == "1" && Decimal(10) == "10";
    assert ReEscape("0") == "0";
    assert BackrefById(1).text == "\\1" && BackrefById(10).text == "\\10";
    assert Then(BackrefById(1), Str("0")).value.text == "\\1" + "0";
    assert "\\1" + "0" == "\\10";
  }

  /** A special character between two words gets a backslash, as `+` in `a+b` and `*` in `c*d`. */
  lemma InfixEscapes(a: string, x: char, b: string)
    requires Word(a) && Word(b) && IsReSpecial(x)
    ensures ReEscape(a + [x] + b) == a + ['\\', x] + b
  {
    WordEscapes(a);
    WordEscapes(b);
    ReEscapeAppend(a, [x]);
    ReEscapeAppend(a + [x], b);
    assert ReEscape([x]) == ['\\', x];
  }

  /** `condGroupMatch('word', 'a+b', 'c*d')` is `(?(word)a\\+b|c\\*d)`: both branches are escaped. */
  lemma CondGroupScenario(n: string, a: string, b: string, c: string, d: string)
    requires Word(n) && Word(a) && Word(b) && Word(c) && Word(d)
    ensures CondGroupMatch(n, Str(a + "+" + b), Str(c + "*" + d)).value.text
            == "(?(" + n + ")" + (a + "\\+" + b) + "|" + (c + "\\*" + d) + ")"
  {
    InfixEscapes(a, '+', b);
    InfixEscapes(c, '*', d);
  }

  /** An empty `no` branch stays empty. */
  lemma CondGroupEmptyScenario(n: string, a: string)
    requires Word(n) && Word(a)
    ensures CondGroupMatch(n, Str(a), Str("")).value.text == "(?(" + n + ")" + a + "|)"
  {
    WordArg(a);
    WordArg("");
  }

  /** A range must be strictly increasing; the check runs even when `exact` is given. */
  lemma RepeatScenario(p: Pattern)
    ensures Repeat(p, None, Some(3), Some(3), true) == Err(MinNotBelowMax(3, 3))
    ensures Repeat(p, Some(4), Some(3), Some(3), true) == Err(MinNotBelowMax(3, 3))
    ensures Repeat(p, None, Some(3), Some(5), true).value.text == p.text + "{3,5}"
    ensures Repeat(p, None, Some(3), Some(5), false).value.text == p.text + "{3,5}?"
    ensures Repeat(p, Some(4), None, None, false).value.text == p.text + "{4}"
    ensures Repeat(p, None, None, Some(5), true).value.text == p.text + "{,5}"
  {
    assert Numerals.Decimal(3) == "3" && Numerals.Decimal(4) == "4" && Numerals.Decimal(5) == "5";
  }

  /** `charset('_', alphanum=True)` is `[0-9a-zA-Z_]`. */
  lemma CharsetScenario()
    ensures CharsetText("_", false, false, false, false, true) == "[0-9a-zA-Z_]"
  {
  }

  /** That class admits letters, digits and `_` but not `-`. */
  lemma CharsetAdmitsScenario()
    ensures ClassAccepts(CharsetText("_", false, false, false, false, true), 'a')
    ensures ClassAccepts(CharsetText("_", false, false, false, false, true), '1')
    ensures ClassAccepts(CharsetText("_", false, false, false, false, true), '_')
    ensures !ClassAccepts(CharsetText("_", false, false, false, false, true), '-')
  {
    CharsetMeaning("_", false, false, false, false, true, 'a');
    CharsetMeaning("_", false, false, false, false, true, '1');
    CharsetMeaning("_", false, false, false, false, true, '_');
    CharsetMeaning("_", false, false, false, false, true, '-');
  }

  /** `charset('-^_', lower=True)` escapes the `-` and the `^`. */
  lemma CharsetEscapeScenario()
    ensures CharsetText("-^_", false, true, false, false, false) == "[a-z\\-\\^_]"
  {
  }
}

=== FILE: syntax.dfy ===
/**
 * A simplified reading of the nesting structure of regular-expression
 * text, after Python's `re`: a backslash escapes the next character, `(`
 * and `)` open and close groups, and `[` starts a bracket class that runs
 * to the first unescaped `]` (a `]` right after the `[` or after its `^`
 * is a literal member). `Balanced` text is the "syntactically valid
 * fragment" every Pattern is meant to hold: its groups nest, its classes
 * close and no escape dangles. Quantifier placement, fixed-width
 * lookbehinds, the two-branch limit of conditional groups, group names and
 * where one token ends and the next begins are the host engine's business
 * and are not judged here; comment groups `(?#...)` and inline flags are
 * not interpreted.
 */
module Syntax {
  import opened Wrappers
  import opened Escaping
  import opened Numerals

  /** Text after the first unescaped `]`, if there is one. */
  function SkipToClose(s: string): (r: Option<string>)
    ensures r.Some? ==> |r.value| < |s|
    decreases |s|
  {
    if s == [] then None
    else if s[0] == '\\' then (if |s| >= 2 then SkipToClose(s[2..]) else None)
    else if s[0] == ']' then Some(s[1..])
    else SkipToClose(s[1..])
  }

  /** Text after the bracket class whose opening `[` precedes `s`. */
  function AfterClass(s: string): (r: Option<string>)
    ensures r.Some? ==> |r.value| < |s|
  {
    var s1 := if |s| > 0 && s[0] == '^' then s[1..] else s;
    var s2 := if |s1| > 0 && s1[0] == ']' then s1[1..] else s1;
    SkipToClose(s2)
  }

  /** Reads `t` starting at group depth `depth`; the depth at the end, or None on a syntax error. */
  function Run(t: string, depth: nat): Option<nat>
    decreases |t|
  {
    if t == [] then Some(depth)
    else if t[0] == '\\' then (if |t| >= 2 then Run(t[2..], depth) else None)
    else if t[0] == '(' then Run(t[1..], depth + 1)
    else if t[0] == ')' then (if depth == 0 then None else Run(t[1..], depth - 1))
    else if t[0] == '[' then
      match AfterClass(t[1..])
      case None => None
      case Some(rest) => Run(rest, depth)
    else Run(t[1..], depth)
  }

  predicate Balanced(t: string) {
    Run(t, 0) == Some(0)
  }

  /** Text with no character that affects nesting: a group name, a number, a quantifier. */
  predicate Plain(t: string) {
    forall i :: 0 <= i < |t| ==> t[i] != '\\' && t[i] != '(' && t[i] != ')' && t[i] != '[' && t[i] != ']'
  }

  lemma {:induction false} SkipToCloseAppend(s: string, b: string)
    requires SkipToClose(s).Some?
    ensures SkipToClose(s + b) == Some(SkipToClose(s).value + b)
    decreases |s|
  {
    assert (s + b)[0] == s[0];
    if s[0] == '\\' {
      assert (s + b)[2..] == s[2..] + b;
      SkipToCloseAppend(s[2..], b);
    } else if s[0] == ']' {
      assert (s + b)[1..] == s[1..] + b;
    } else {
      assert (s + b)[1..] == s[1..] + b;
      SkipToCloseAppend(s[1..], b);
    }
  }

  lemma AfterClassAppend(s: string, b: string)
    requires AfterClass(s).Some?
    ensures AfterClass(s + b) == Some(AfterClass(s).value + b)
  {
    var s1 := if |s| > 0 && s[0] == '^' then s[1..] else s;
    var s2 := if |s1| > 0 && s1[0] == ']' then s1[1..] else s1;
    assert |s2| > 0;
    var t1 := if |s + b| > 0 && (s + b)[0] == '^' then (s + b)[1..] else s + b;
    assert t1 == s1 + b;
    var t2 := if |t1| > 0 && t1[0] == ']' then t1[1..] else t1;
    assert t2 == s2 + b;
    SkipToCloseAppend(s2, b);
  }

  /** Reading a concatenation reads the first part, then the second from where the first ended. */
  lemma {:induction false} RunAppend(a: string, b: string, d: nat)
    requires Run(a, d).Some?
    ensures Run(a + b, d) == Run(b, Run(a, d).value)
    decreases |a|
  {
    if a == [] {
      assert a + b == b;
    } else {
      assert (a + b)[0] == a[0];
      if a[0] == '\\' {
        assert (a + b)[2..] == a[2..] + b;
        RunAppend(a[2..], b, d);
      } else if a[0] == '[' {
        assert (a + b)[1..] == a[1..] + b;
        AfterClassAppend(a[1..], b);
        RunAppend(AfterClass(a[1..]).value, b, d);
      } else {
        assert (a + b)[1..] == a[1..] + b;
        var d' := if a[0] == '(' then d + 1 else if a[0] == ')' then d - 1 else d;
        RunAppend(a[1..], b, d');
      }
    }
  }

  /** Reading is independent of how deep the surrounding groups are. */
  lemma {:induction false} RunShift(t: string, d: nat, k: nat)
    requires Run(t, d).Some?
    ensures Run(t, d + k) == Some(Run(t, d).value + k)
    decreases |t|
  {
    if t != [] {
      if t[0] == '\\' {
        RunShift(t[2..], d, k);
      } else if t[0] == '(' {
        RunShift(t[1..], d + 1, k);
      } else if t[0] == ')' {
        RunShift(t[1..], d - 1, k);
      } else if t[0] == '[' {
        RunShift(AfterClass(t[1..]).value, d, k);
      } else {
        RunShift(t[1..], d, k);
      }
    }
  }

  lemma PlainAppend(a: string, b: string)
    requires Plain(a) && Plain(b)
    ensures Plain(a + b)
  {
    forall i | 0 <= i < |a + b| ensures (a + b)[i] != '\\' && (a + b)[i] != '(' && (a + b)[i] != ')'
                                       && (a + b)[i] != '[' && (a + b)[i] != ']' {
      if i < |a| { assert (a + b)[i] == a[i]; } else { assert (a + b)[i] == b[i - |a|]; }
    }
  }

  lemma {:induction false} RunPlain(t: string, d: nat)
    requires Plain(t)
    ensures Run(t, d) == Some(d)
    decreases |t|
  {
    if t != [] {
      RunPlain(t[1..], d);
    }
  }

  /** Escaped literal text never changes the nesting. */
  lemma {:induction false} RunLiteral(t: string, d: nat)
    requires LiteralTokens(t)
    ensures Run(t, d) == Some(d)
    decreases |t|
  {
    if t != [] {
      if t[0] == '\\' {
        RunLiteral(t[2..], d);
      } else {
        RunLiteral(t[1..], d);
      }
    }
  }

  /** Balanced text can be embedded at any depth and comes back out at that depth. */
  lemma BalancedAt(t: string, d: nat)
    requires Balanced(t)
    ensures Run(t, d) == Some(d)
  {
    RunShift(t, 0, d);
  }

  lemma BalancedAppend(a: string, b: string)
    ensures Balanced(a) && Balanced(b) ==> Balanced(a + b)
  {
    if Balanced(a) {
      RunAppend(a, b, 0);
    }
  }

  /** A plain name between two delimiters changes nothing the delimiters do not. */
  lemma PlainBetween(pre: string, name: string, post: string, d: nat, e: nat)
    requires Run(pre, 0) == Some(d) && Run(post, d) == Some(e)
    ensures Plain(name) ==> Run(pre + name + post, 0) == Some(e)
  {
    if Plain(name) {
      RunAppend(pre, name + post, 0);
      RunPlain(name, d);
      RunAppend(name, post, d);
      assert pre + name + post == pre + (name + post);
    }
  }

  /** `open + t + close` is balanced when `t` is and the delimiters open and close one group. */
  lemma BalancedWrap(open: string, t: string, close: string)
    ensures Run(open, 0) == Some(1) && Balanced(t) && Run(close, 1) == Some(0) ==>
              Balanced(open + t + close)
  {
    if Run(open, 0) == Some(1) && Balanced(t) && Run(close, 1) == Some(0) {
      RunAppend(open, t + close, 0);
      BalancedAt(t, 1);
      RunAppend(t, close, 1);
      assert open + t + close == open + (t + close);
    }
  }
}

=== FILE: wrappers.dfy ===
/** Failure-compatible wrappers shared by the other modules. */
module Wrappers {

  datatype Option<+T> = None | Some(value: T)

  /** The outcome of an operation that may raise an argument error. */
  datatype Result<+T, +E> = Ok(value: T) | Err(error: E)
}
